=== FILE: README.md ===
# todo.txt codec in Dafny

A model of the `todotxt` JavaScript package (`index.js`). The package reads and writes todo.txt
task lists; the model covers its core logic:

- **Line parser** (`parse`, `parseLine`, `regexTrimLeft`). A line is trimmed, and then its
  prefixes are stripped strictly from left to right: the completion marker `x`, a completion
  date (looked for only after the marker), a priority `(A)` and a creation date. What is left
  is the text.
- **Tag extractor** (`parseContextsAndProjects`, `regexMatchAll`). It finds the `@context` and
  `+project` names of a text, each once, in order of first occurrence.
- **Task record** (`todoItem`) and its four mutators `addContext`, `addProject`,
  `removeContext` and `removeProject`. They use `addTag` and `removeTag` to keep the text in
  step with the lists.
- **Stringifier** (`stringify` on one task and on an array, `stringifyItem`, `stringifyDate`).

Modules, in dependency order:

| module | file | contents |
|---|---|---|
| `Options` | options.dfy | `Option`, the model of JavaScript's `null` |
| `Text` | text.dfy | the `\s` / `trim` whitespace class, `Trim` |
| `Strings` | strings.dfy | `indexOf`, `split(/\r?\n/)` (as a split at `\n` followed by dropping one trailing `\r` from each piece but the last), `join("\n")` |
| `Dates` | dates.dfy | date tokens, `String(n)`, the zero padding, `stringifyDate` |
| `Tags` | tags.dfy | the `/\s([@\+])(\S+)/g` scan, de-duplication, `_.without`, `parseContextsAndProjects` |
| `Tasks` | tasks.dfy | the task record, `todoItem`, `addTag`, `removeTag` and the four mutators |
| `Parser` | parser.dfy | the prefix scanners, `parseLine`, `parse` |
| `Stringifier` | stringifier.dfy | `stringifyItem`, `stringify` |
| `RoundTrip` | roundtrip.dfy | parse then stringify, stringify then parse, for a line, a task and a file |

The mutators are pure functions that return the updated task; the JavaScript versions update
the item in place. JavaScript's `null` is `None`. A date is the triple of numbers read from the
digit groups of a `dddd-dd-dd` token. A date field can also hold a string that a caller stored
there directly; `stringifyDate` writes such a string as it is (`DateValue.Literal`).

The main results are:

- `RoundTrip.LineRoundTrip`: `stringifyItem(parseLine(l)) == l` for every canonical line.
- `RoundTrip.TaskRoundTrip`: `parseLine(stringifyItem(t))` gives back `t` for every well-formed
  task.
- `RoundTrip.FileRoundTrip`: `stringify(parse(s)) == s` for a file of canonical and empty lines.
- `Tags.ExtractSpec`: a name is listed exactly when the pattern matches it.
- `Tags.ExtractInOrder`: the names are listed in the order of their first matches in the text.
- `Tasks.AddNameKeepsConsistent`: adding a tag keeps the lists equal to what the text yields.
- `Tasks.RemoveLeadingTagDrifts`: removing a tag does not always do so.
- `Tasks.RemoveTagOfAddTag` and `Tasks.RemoveNameOfAddName`: removal undoes addition for a tag that was not there.

## Model

| member | source | states |
|---|---|---|
| Text.Trim | index.js:50 | The result is a middle part of the input that has only whitespace on both sides of it. Its ends are not whitespace. It is empty exactly when the input is all whitespace. |
| Text.TrimOfTrimmed | index.js:36 | Trimming a string whose ends are not whitespace leaves it unchanged. |
| Strings.IndexOf | index.js:146 | The result is -1 exactly when the pattern does not occur. Otherwise the pattern occurs at the result and at no earlier position. |
| Strings.JoinSplitNl | index.js:42 | Joining the pieces of a split with newlines gives back the string. |
| Strings.SplitJoinNl | index.js:223 | Splitting at newlines a join of newline-free pieces gives back the pieces. |
| Strings.SplitNlPrefix | index.js:42 | A newline-free piece followed by a newline is split off as the first piece. |
| Strings.JoinNl | index.js:223 | `join("\n")` of no pieces is the empty string; otherwise the result starts with the first piece. With `Strings.SplitJoinNl`, splitting it gives the pieces back. |
| Strings.DropCr | index.js:42 | The string loses one final `\r` exactly when it ends in one, and is otherwise unchanged. |
| Strings.SplitLines | index.js:42 | Splitting at `\r?\n` gives one line per newline piece. Before each line break, a piece ending in `\r` loses exactly that `\r` and any other piece is kept whole. The last line is the last piece, unchanged. |
| Dates.ShowNat | index.js:315 | `String(n)` is a non-empty digit string worth `n`, with no leading zero. |
| Dates.ShowValueOf | index.js:315 | A digit string without a leading zero is reproduced by printing its value. |
| Dates.DateOf | index.js:20 | The groups of a date token give a year below 10000 and a month and day below 100. |
| Dates.ShowDate | index.js:306-328 | A string passes through unchanged. A calendar date is written as its unpadded year, then `-`, then the rest; `Dates.ShowDateAnyYear` states the padded month and day for every year. |
| Dates.Pad2 | index.js:317-325 | A one-character string gets a `0` in front and becomes two characters long; any other string is kept. |
| Dates.TwoDigitGroup | index.js:317-325 | A month or day below 100, padded, is two digits worth the same number. |
| Dates.FourDigitYear | index.js:315 | A year from 1000 to 9999 prints as four digits. |
| Dates.ShowDateOf | index.js:306-328 | Rendering the date of a token whose year does not start with `0` gives the token back. |
| Dates.ShowDateAnyYear | index.js:315-325 | For any year, a date with month and day below 100 is written as the year as `String` writes it, `-`, two digits worth the month, `-`, and two digits worth the day. |
| Dates.ShowDateOfAnyToken | index.js:306-328 | Rendering the date of any date token, a zero-led year included, writes the year without leading zeros followed by the token's own `-MM-DD`. |
| Dates.DateOfShowDate | index.js:306-328 | The rendering of a date with a four-digit year is a date token, and that token stands for the same date. |
| Tags.WordLen | index.js:22 | `\S+` takes a run of non-whitespace that ends at whitespace or at the end of the string. |
| Tags.WordLenUnique | index.js:22 | Any run with those two properties is the one `WordLen` takes, so the greedy match is the maximal run. |
| Tags.OccurrencesSound | index.js:166-178 | Every tag the global scan reports is a match of `/\s([@\+])(\S+)/` somewhere in the string. |
| Tags.OccurrencesComplete | index.js:166-178 | Every match of the pattern is reported by the scan, because matches do not overlap. |
| Tags.OccurrencesInOrder | index.js:166-178 | The scan reports its matches at strictly increasing positions, and the `k`-th reported tag is a match of the pattern at the `k`-th position. |
| Tags.StartsComplete | index.js:166-178 | Every position where the pattern matches is among the positions the scan reports. |
| Tags.TagAtUnique | index.js:22 | At one position the pattern matches at most one sigil and name, because `\S+` is greedy. |
| Tags.ScanPosition | index.js:166-178 | Each match of the pattern is reported by the scan at its own position, with its own sigil and name. |
| Tags.OccurrencesAppend | index.js:166-178 | Text after a whitespace character does not change the matches before it. The matches in that text are found as if it stood alone. |
| Tags.OccurrencesOfAppendedTag | index.js:166-178 | Appending a space and a well-formed tag adds exactly that tag at the end of the matches. |
| Tags.Names | index.js:203-210 | A name is among the names of one sigil exactly when a match with that sigil carries it. |
| Tags.Dedup | index.js:204-209 | The list has the same elements as its input and no duplicates. |
| Tags.DedupOrder | index.js:204-209 | The list keeps the elements in the order of their first occurrence. |
| Tags.DedupSnoc | index.js:204-206 | A new name goes to the end of the list; a name already seen changes nothing. |
| Tags.DedupOfNoDup | index.js:204-209 | A list without duplicates is unchanged. |
| Tags.Without | index.js:130 | `_.without` keeps exactly the other elements. It is the identity when the element is absent and keeps a list free of duplicates. |
| Tags.WithoutAppend | index.js:130 | `_.without` on a concatenation is the concatenation of its results on the parts, so the kept elements stay in their order. |
| Tags.WithoutSnoc | index.js:130 | Removing an element just appended to a list that did not hold it gives the list back. |
| Tags.NamesOrder | index.js:203-210 | Two names of one sigil first occur in the same order among the names as their tags first occur among the matches. |
| Tags.Extract | index.js:197-218 | Both lists of `parseContextsAndProjects` are free of duplicates. |
| Tags.ExtractSpec | index.js:197-212 | A name is a context (project) exactly when some whitespace-preceded `@` (`+`) match carries it in the text with a space in front. Because of that space, a tag at the very start counts. |
| Tags.NamesInTextOrder | index.js:197-212 | For `i < j`, the `i`-th deduplicated name of a sigil has a first match that stands before every match of the `j`-th name. |
| Tags.ExtractInOrder | index.js:197-212 | Contexts and projects are listed in the order in which they first stand in `" " + text`: for `i < j`, the first match of entry `i` comes before every match of entry `j`. |
| Tags.ExtractAppendTag | index.js:197-212 | Appending a space and a tag adds its name at the end of the matching list when it is new, and leaves the other list alone. |
| Tasks.MakeTask | index.js:94-106 | `todoItem` copies the properties and derives lists that agree with the text and have no duplicates. |
| Tasks.CalendarOf | index.js:101 | The calendar date of a date field holds the same date as the field. |
| Tasks.MakeTaskOfConsistent | index.js:94-106 | Rebuilding a consistent task from its own properties gives the task back. |
| Tasks.AddTag | index.js:145-151 | Afterwards `text + " "` holds the tag between spaces. The text changes exactly when it did not hold it before, and then it becomes `text + " " + tag`. |
| Tasks.RemoveTag | index.js:153-163 | Afterwards `text + " "` holds the tag between spaces nowhere. A text that did not hold it is unchanged, and the text never grows. |
| Tasks.AddName | index.js:114-126 | A listed name changes nothing. A new name goes to the end of its list, and its tag then stands between spaces in the text: the text gains a space and the tag at its end unless it already held the tag, in which case it is unchanged. The other list is unchanged, no duplicate is created, and no other field changes. |
| Tasks.RemoveName | index.js:128-133 | An unlisted name changes nothing. Otherwise the list becomes its `_.without` the name, so the others stay in order, and the tag no longer stands between spaces in the text. The other list and the other fields are unchanged. |
| Tasks.AddContext | index.js:114-119 | A listed context changes nothing. Otherwise it goes to the end of the contexts and, unless the text already held `@context` between spaces, the text gains ` @context` at its end. When `@context` already stood between spaces, the text is unchanged. The number, completion, dates, priority and projects never change. |
| Tasks.AddProject | index.js:121-126 | A listed project changes nothing. Otherwise it goes to the end of the projects and, unless the text already held `+project` between spaces, the text gains ` +project` at its end. When `+project` already stood between spaces, the text is unchanged. The number, completion, dates, priority and contexts never change. |
| Tasks.RemoveContext | index.js:128-133 | An unlisted context changes nothing. Otherwise the contexts become their `_.without` the context, and `@context` no longer stands between spaces in the text. The number, completion, dates, priority and projects never change. |
| Tasks.RemoveProject | index.js:135-140 | The corrected version of line 138, which searches for `+project`: an unlisted project changes nothing; otherwise the projects become their `_.without` the project, and `+project` no longer stands between spaces in the text. The number, completion, dates, priority and contexts never change. |
| Tasks.RemoveProjectAsWritten | index.js:135-140 | As the source has it: an unlisted project changes nothing; otherwise the projects become their `_.without` the project and the text loses `@project`, not `+project`. No other field changes. |
| Tasks.AddNameIdempotent | index.js:114-126 | Adding a name twice is the same as adding it once. |
| Tasks.RemoveNameIdempotent | index.js:128-133 | Removing a name twice is the same as removing it once. |
| Tasks.RemoveTagCut | index.js:153-163 | For a tag without spaces, `removeTag(a + " " + tag + b)` with `b` empty or starting with a space gives `a + b`, when neither `a + " "` nor `a + b + " "` holds the tag between spaces. With `a = "Hello"` and `b = " @Context1 @Context2"` this is the expectation of test/index.js:134-135. |
| Tasks.LeftmostSpacedTag | index.js:156 | In `a + " " + tag + b + " "`, the leftmost spaced occurrence of a space-free tag is the one after `a` when `a + " "` holds none. |
| Tasks.RemoveTagStep | index.js:155-160 | One pass of the loop cuts the space and tag at the leftmost spaced occurrence, and the loop goes on with that text. |
| Tasks.RemoveTagOfAddTag | index.js:145-163 | `removeTag` undoes `addTag` for a tag without spaces that the text did not hold between spaces. |
| Tasks.RemoveNameOfAddName | index.js:114-133 | Removing a name undoes adding it, when the name was not listed, has no spaces, and its tag did not stand between spaces in the text. |
| Tasks.SpacedTagIsMatch | index.js:146 | A tag that stands between spaces in `text + " "` is a match of the tag pattern in `" " + text`. |
| Tasks.AddNameKeepsConsistent | index.js:114-126 | On a consistent task, adding a non-empty, whitespace-free name keeps the lists equal to what the text yields. |
| Tasks.AddMalformedNameDrifts | index.js:114-126 | Adding an empty name or one with whitespace lists it, but the task is then not consistent, because no tag match carries such a name. |
| Tasks.AddContextWithSpace | index.js:114-119 | `addContext("a b")` on an empty text lists `a b`, and the task is not consistent. |
| Tasks.RemoveLeadingTagDrifts | index.js:128-133 | Removal does not keep that agreement. For the text `@a`, the context leaves the list, but the tag stays in the text because it has no space before it. |
| Tasks.ExtractLeadingTag | index.js:201-202 | The text `@a` yields the context `a`, because the scan puts a space in front of the text. |
| Tasks.RemoveLeadingTag | index.js:156 | `removeTag("@a", "@a")` finds nothing to remove. |
| Tasks.ExtractSample | index.js:197-212 | The text `a +p` yields no contexts and the project `p`. |
| Tasks.RemoveTagSample | index.js:153-163 | In `a +p`, the tag `@p` is not found, and `+p` is cut out together with the space before it. |
| Tasks.RemoveProjectAsWrittenKeepsTag | index.js:138 | For `a +p`, the source's `removeProject("p")` empties the list but leaves `+p` in the text, so the task is no longer consistent. |
| Tasks.RemoveProjectAsWrittenDrifts | index.js:135-140 | Whenever the text holds the project's tag but not `@project`, the source's `removeProject` leaves the text unchanged and the task inconsistent. |
| Tasks.RemoveProjectClearsTag | index.js:135-140 | With the corrected search for `+p`, the same call leaves the text `a` and the task consistent. |
| Parser.Cut | index.js:184-195 | The token is the first `n` characters, and the separator is a non-empty whitespace run. The rest does not start with whitespace; on a trimmed line it is non-empty and trimmed. |
| Parser.CutRejoins | index.js:191 | Token, separator and rest put together give the string. |
| Parser.LexComplete | index.js:18 | The marker is found exactly when the line starts with `x` followed by whitespace. |
| Parser.LexDate | index.js:20 | A date is found exactly when the line starts with a `dddd-dd-dd` token followed by whitespace. |
| Parser.LexPriority | index.js:19 | A priority is found exactly when the line starts with `(`, an upper-case letter, `)` and whitespace. |
| Parser.ScannersRejoin | index.js:184-195 | What each scanner consumed, followed by what it left, is the string it scanned. |
| Parser.Lex | index.js:65-89 | The marker is taken exactly when the line starts with `x` and whitespace. Every separator the lexer takes is a non-empty whitespace run. After the marker a date is always taken as the completion date, and a completion date is found only there; a complete line with neither completion date nor priority has no creation date either. No priority or date that could still be stripped is left at the head of the text. Each prefix has its token's shape. On a trimmed line the text left is non-empty and trimmed. |
| Parser.LexConsumes | index.js:65-89 | The consumed prefixes and the text together are the line. |
| Parser.ParseLine | index.js:45-92 | The result is `null` exactly when the line is blank. Otherwise the task carries its number and has a trimmed, non-empty text. Its lists agree with the text, its priority is empty or one upper-case letter, and a completion date implies complete. It is complete exactly when the trimmed line starts with `x` and whitespace. Its text, its priority, and whether it has each date are those the lexer found in the trimmed line. |
| Parser.ParseLines | index.js:25-30 | There is one entry per line. Entry `i` is `null` exactly when line `i` is blank, and otherwise it is numbered `i + 1`. |
| Parser.ParseLinesAt | index.js:27-28 | Entry `i` is line `i` parsed as line number `i + 1`. |
| Parser.Read | index.js:65-89 | The properties carry the line number and the text left. The task is complete exactly when the marker was found, and each date is set exactly when its token was found. The priority is the one upper-case letter between the parentheses, or empty when there is none. |
| Parser.Parse | index.js:25-43 | A blank blob gives no entries. Otherwise there is one entry per line of the trimmed content, `null` exactly for blank lines, numbered from 1. An array gives one entry per element. |
| Parser.BlankLinesAgree | index.js:42 | Dropping the `\r` of a `\r\n` line end does not change whether a line is blank. |
| Parser.BareDateIsNotCompletion | index.js:65-86 | A line that starts with a date and no marker is open, has no completion date and no priority, and gets that date as its creation date. |
| Parser.MarkerTakesWhitespaceRun | index.js:65-67 | `/^x\s+/` takes the whole whitespace run after the marker, so `x`, any whitespace, and a text without further prefixes parse as a complete task with that text. |
| Parser.MarkerWithTab | index.js:65-67 | `parseLine("x\t  foo")` is complete with the text `foo`. |
| Parser.PlainLineDefaults | index.js:56-63 | A line with no recognised prefix keeps the defaults: open, no priority, no dates, and its trimmed form as text. |
| Stringifier.Emits | index.js:245 | A date field is truthy exactly when it is set and writes a non-empty string. |
| Stringifier.CompletionPart | index.js:241-247 | The part is non-empty exactly for a complete task, and then starts with `x `. It is just `x ` when the completion date is falsy; otherwise it is three characters longer than the written date and ends with a space. |
| Stringifier.PriorityPart | index.js:251-253 | The part is empty exactly when the priority is. Otherwise it is three characters longer than the priority, starts with `(` and ends with `) `. |
| Stringifier.DatePart | index.js:256-258 | The part is empty exactly when the date is falsy. Otherwise it is one character longer than the written date and ends with a space. |
| Stringifier.LineOf | index.js:223 | In an array, `null` contributes the empty line and a task contributes its rendered line. |
| Stringifier.Render | index.js:238-263 | The text ends the line unchanged, and a completed task's line starts with `x `. |
| Stringifier.StringifyItem | index.js:233-237 | `null` gives `null`, and a task gives its line. |
| Stringifier.Stringify | index.js:221-231 | An empty array gives the empty string, and a one-entry array gives that entry's line. |
| Stringifier.StringifyListLines | index.js:223 | Splitting the output for an array at newlines gives one line per entry, with the empty line for `null`. |
| Stringifier.OpenTaskHidesCompletionDate | index.js:241-248 | An open task's line does not depend on its completion date, and it starts with the priority part. |
| Stringifier.CompletionDatePlacement | index.js:241-247 | A complete task's completion date is written right after `x `. |
| RoundTrip.DateLexemeRoundTrip | index.js:306-328 | A date token followed by one space, whose year does not start with `0`, is written back exactly as read. |
| RoundTrip.RenderOfRead | index.js:238-263 | Rendering the fields read from a single-spaced layout writes the layout's prefixes and text again. |
| RoundTrip.ParseLineReads | index.js:88-91 | The task of a trimmed, non-blank line holds the fields of that line's layout. |
| RoundTrip.LineRoundTrip | index.js:45-92 | `stringifyItem(parseLine(l)) == l` for a trimmed line whose prefixes are followed by one space each and whose dates have years from 1000 to 9999. |
| RoundTrip.LexRendered | index.js:65-89 | The scanners find, on a task's line, exactly the prefixes rendering wrote. |
| RoundTrip.ReadRenderedLayout | index.js:70-89 | Reading the rendered prefixes gives back the fields they were rendered from. |
| RoundTrip.FieldsRoundTrip | index.js:56-89 | The parser hands `todoItem` exactly the properties the line was rendered from. |
| RoundTrip.TaskRoundTrip | index.js:233-264 | Parsing the line of a well-formed task gives the task back, numbered as its line. |
| RoundTrip.LinesRoundTrip | index.js:221-223 | Stringifying the parse of an array of empty and canonical lines joins the lines with newlines. |
| RoundTrip.FileRoundTrip | index.js:25-43 | `stringify(parse(s)) == s` for a trimmed, non-blank file whose lines are each empty or canonical. |

## Left out

- Buffer input and character encodings (`Buffer.isBuffer`, `toString(encoding)`). Input is already a string of characters.
- `parseDate` (`new Date(string)`). A date is the `(year, month, day)` read from the digit groups of the token. There is no calendar check, no time zone and no `Invalid Date`.
- Tasks.MakeTask: takes calendar dates only. The source converts a date given as a string with `parseDate`, which is not modelled.
- The keyed-object path of `stringify` (`isItemsList`, `itemsListAsArray`, `isItem`). Its checks depend on JavaScript's dynamic typing. The input is instead `Single(task)` or `List(entries)`, so the "Unexpected input" and "Invalid date value" errors cannot arise. `stringify(null)` is left out with it.
- The stray `props.prout` assignment in `parseLine`. It is not a property of the task `todoItem` builds.
- In-place updates: the mutators return a new task, and the JavaScript item methods update their own item.
- Tasks.RemoveName: does not claim that the lists stay consistent with the text. A tag at the very start of the text has no space before it and survives `removeTag`; `Tasks.RemoveLeadingTagDrifts` exhibits this.
- RoundTrip.LineRoundTrip: holds only for canonical lines. `String(year)` does not pad the year, and rendering puts one space after each prefix, so other spacing and years below 1000 do not survive. It also rests on the date abstraction above. The real `parseDate` rolls an impossible date such as 2011-02-30 over to 2011-03-02. It also reads a date as midnight UTC, while `stringifyDate` writes local fields (index.js:306-318), so west of UTC the day written is one earlier. Neither keeps the line.
- RoundTrip.TaskRoundTrip: holds only for well-formed tasks. Examples that fail are a text that itself starts with a date or priority, a completion date on an open task, and a creation date on a complete task with neither completion date nor priority (it is read back as the completion date).
- Tasks.AddNameKeepsConsistent: holds only for non-empty, whitespace-free names. `addContext` and `addProject` list any name, but no tag match carries an empty name or one with whitespace; `Tasks.AddMalformedNameDrifts` exhibits this.
- Tasks.RemoveNameOfAddName: holds only when the text did not already hold the tag between spaces and the name has no spaces. Otherwise `removeTag` also cuts the earlier occurrence.
- Tags.Occurrences: has no contract of its own. Its behaviour is stated by `Tags.OccurrencesSound`, `Tags.OccurrencesComplete` and `Tags.OccurrencesInOrder`.
- `sample1.js` and `sample2.js`: console demonstrations, not part of the library.

## Where the code departs from the todo.txt format

The model follows `index.js` in each case:

- Removal looks for the tag between literal spaces in `text + " "` (index.js:156), not between any whitespace characters. A tag next to a tab or at the very start of the text stays.
- The year is written with `String(year)` (index.js:315), which does not pad it. A year below 1000 is written with fewer than four digits.
- `removeProject` searches the text for `@project`, while `addProject` adds `+project` (index.js:124, 138). The model keeps both versions; see Findings.

## Findings

| source | as written | input that shows it | evidently intended | confidence | as-written member | corrected member |
|---|---|---|---|---|---|---|
| index.js:138 | `removeProject` removes `"@" + project` from the text | a task with text `a +p`, then `removeProject("p")`: the list becomes empty but the text keeps `+p` | remove `"+" + project`, as `addProject` adds it | high, not executed | Tasks.RemoveProjectAsWrittenKeepsTag | Tasks.RemoveProjectClearsTag |

=== FILE: dates.dfy ===
/** Calendar dates as the todo.txt grammar reads and writes them: the `dddd-dd-dd` token and
    the `YYYY-MM-DD` rendering of `stringifyDate`. */
module Dates {
  import opened Text

  /** A date taken from the three digit groups of a date token, with no calendar check. */
  datatype Date = Date(year: nat, month: nat, day: nat)

  /** What a date field may hold: a calendar date, or a string a caller stored into the
      field directly, which is rendered as it is. */
  datatype DateValue = Calendar(date: Date) | Literal(spelling: string)

  predicate AllDigits(s: string) { forall i :: 0 <= i < |s| ==> IsDigit(s[i]) }

  function DigitChar(d: nat): (c: char)
    requires d < 10
    ensures IsDigit(c)
  {
    ('0' as int + d) as char
  }

  function DigitValue(c: char): (d: nat)
    requires IsDigit(c)
    ensures d < 10 && DigitChar(d) == c
  {
    c as int - '0' as int
  }

  /** The decimal value of a digit string (the empty string counts as 0). */
  function ValueOf(ds: string): nat
    requires AllDigits(ds)
    decreases |ds|
  {
    if |ds| == 0 then 0 else 10 * ValueOf(ds[..|ds| - 1]) + DigitValue(ds[|ds| - 1])
  }

  /** `String(n)` for a non-negative integer: its decimal digits, without leading zeros. */
  function ShowNat(n: nat): (r: string)
    ensures r != [] && AllDigits(r)
    ensures ValueOf(r) == n
    ensures |r| > 1 ==> r[0] != '0'
    decreases n
  {
    if n < 10 then [DigitChar(n)]
    else
      var r := ShowNat(n / 10) + [DigitChar(n % 10)];
      assert r[..|r| - 1] == ShowNat(n / 10);
      r
  }

  /** A digit string of one or more digits whose first digit is not `0` is worth at least 1. */
  lemma {:induction false} ValueOfPositive(ds: string)
    requires |ds| >= 1 && AllDigits(ds) && ds[0] != '0'
    ensures ValueOf(ds) >= 1
    decreases |ds|
  {
    if |ds| > 1 {
      ValueOfPositive(ds[..|ds| - 1]);
    }
  }

  /** Printing the value of a digit string without a leading zero gives the string back. */
  lemma {:induction false} ShowValueOf(ds: string)
    requires |ds| >= 1 && AllDigits(ds) && ds[0] != '0'
    ensures ShowNat(ValueOf(ds)) == ds
    decreases |ds|
  {
    if |ds| > 1 {
      var init := ds[..|ds| - 1];
      ShowValueOf(init);
      ValueOfPositive(init);
      var n := ValueOf(ds);
      assert n / 10 == ValueOf(init) && n % 10 == DigitValue(ds[|ds| - 1]);
      assert ds == init + [ds[|ds| - 1]];
    }
  }

  /** `mm.length === 1 ? "0" + mm : mm`: pads a one-digit rendering to two digits. */
  function Pad2(s: string): (r: string)
    ensures |s| == 1 ==> |r| == 2 && r[0] == '0' && r[1..] == s
    ensures |s| != 1 ==> r == s
  {
    if |s| == 1 then "0" + s else s
  }

  /** The shape `\d{4}-\d{2}-\d{2}` of a date token. */
  predicate IsDateToken(s: string) {
    |s| == 10 && AllDigits(s[..4]) && s[4] == '-' && AllDigits(s[5..7]) && s[7] == '-' && AllDigits(s[8..])
  }

  /** The date a token stands for, read group by group. */
  function DateOf(tok: string): (d: Date)
    requires IsDateToken(tok)
    ensures d.year < 10000 && d.month < 100 && d.day < 100
  {
    ValueOfBound(tok[..4]);
    ValueOfBound(tok[5..7]);
    ValueOfBound(tok[8..]);
    Date(ValueOf(tok[..4]), ValueOf(tok[5..7]), ValueOf(tok[8..]))
  }

  function Pow10(k: nat): nat {
    if k == 0 then 1 else 10 * Pow10(k - 1)
  }

  /** A string of `k` digits is worth less than 10^k. */
  lemma {:induction false} ValueOfBound(ds: string)
    requires AllDigits(ds)
    ensures ValueOf(ds) < Pow10(|ds|)
    decreases |ds|
  {
    if |ds| > 0 {
      ValueOfBound(ds[..|ds| - 1]);
    }
  }

  /** `stringifyDate`: a string passes through unchanged; a calendar date is rendered as its
      year, a `-`, its month padded to two digits, a `-` and its day padded to two digits. */
  function ShowDate(v: DateValue): (r: string)
    ensures v.Literal? ==> r == v.spelling
    ensures v.Calendar? ==> ShowNat(v.date.year) + "-" <= r
  {
    match v
    case Literal(s) => s
    case Calendar(Date(y, m, d)) => ShowNat(y) + "-" + Pad2(ShowNat(m)) + "-" + Pad2(ShowNat(d))
  }

  /** A two-digit group is reproduced by printing its value padded to two digits. */
  lemma TwoDigitRoundTrip(ds: string)
    requires |ds| == 2 && AllDigits(ds)
    ensures Pad2(ShowNat(ValueOf(ds))) == ds
  {
    if ds[0] == '0' {
      assert ValueOf(ds) == DigitValue(ds[1]) by {
        assert ds[..1] == [ds[0]] && ds[..1][..0] == [];
        assert ValueOf(ds[..1]) == 0;
      }
      assert ds == "0" + [ds[1]];
    } else {
      ShowValueOf(ds);
    }
  }

  /** Rendering the date a token stands for gives the token back, provided its year does not
      start with `0` (`String(year)` does not pad the year). */
  lemma ShowDateOf(tok: string)
    requires IsDateToken(tok) && tok[0] != '0'
    ensures ShowDate(Calendar(DateOf(tok))) == tok
  {
    ShowValueOf(tok[..4]);
    TwoDigitRoundTrip(tok[5..7]);
    TwoDigitRoundTrip(tok[8..]);
    assert tok == tok[..4] + "-" + tok[5..7] + "-" + tok[8..];
  }

  /** Printing a number of two or more digits prints its leading digits and then one more. */
  lemma ShowNatStep(n: nat)
    requires n >= 10
    ensures |ShowNat(n)| == |ShowNat(n / 10)| + 1
  {
  }

  /** A year of four digits prints as four digits. */
  lemma FourDigitYear(y: nat)
    requires 1000 <= y <= 9999
    ensures |ShowNat(y)| == 4
  {
    var a := y / 10;
    assert 100 <= a <= 999;
    var b := a / 10;
    assert 10 <= b <= 99;
    ShowNatStep(y);
    ShowNatStep(a);
    ShowNatStep(b);
    assert b / 10 < 10;
  }

  /** A month or day below 100 prints, padded, as two digits worth the same value. */
  lemma TwoDigitGroup(n: nat)
    requires n < 100
    ensures |Pad2(ShowNat(n))| == 2 && AllDigits(Pad2(ShowNat(n)))
    ensures ValueOf(Pad2(ShowNat(n))) == n
  {
    if n < 10 {
      var p := Pad2(ShowNat(n));
      assert p[..1] == "0";
    } else {
      assert ShowNat(n) == ShowNat(n / 10) + [DigitChar(n % 10)];
    }
  }

  /** Reading back the rendering of a date with a four-digit year and two-digit month and day
      gives a date token that stands for the same date. */
  lemma DateOfShowDate(d: Date)
    requires 1000 <= d.year <= 9999 && d.month < 100 && d.day < 100
    ensures IsDateToken(ShowDate(Calendar(d)))
    ensures DateOf(ShowDate(Calendar(d))) == d
  {
    FourDigitYear(d.year);
    TwoDigitGroup(d.month);
    TwoDigitGroup(d.day);
    var y, m, dd := ShowNat(d.year), Pad2(ShowNat(d.month)), Pad2(ShowNat(d.day));
    var s := ShowDate(Calendar(d));
    assert s == y + "-" + m + "-" + dd;
    assert s[..4] == y && s[5..7] == m && s[8..] == dd;
  }

  /** For any year, the rendering of a date with a month and day below 100 is the year as
      `String` writes it, a `-`, two digits worth the month, a `-` and two digits worth the
      day. */
  lemma ShowDateAnyYear(y: nat, m: nat, d: nat)
    requires m < 100 && d < 100
    ensures var r, k := ShowDate(Calendar(Date(y, m, d))), |ShowNat(y)|;
      && |r| == k + 6 && r[..k] == ShowNat(y) && r[k] == '-' && r[k + 3] == '-'
      && AllDigits(r[k + 1..k + 3]) && ValueOf(r[k + 1..k + 3]) == m
      && AllDigits(r[k + 4..]) && ValueOf(r[k + 4..]) == d
  {
    TwoDigitGroup(m);
    TwoDigitGroup(d);
    var ys, ms, ds := ShowNat(y), Pad2(ShowNat(m)), Pad2(ShowNat(d));
    assert ShowDate(Calendar(Date(y, m, d))) == ys + "-" + ms + "-" + ds;
    DashedParts(ys, ms, ds);
  }

  /** Where the parts of `year-MM-DD` sit when the year has `k` characters. */
  lemma DashedParts(ys: string, ms: string, ds: string)
    requires |ms| == 2 && |ds| == 2
    ensures var r, k := ys + "-" + ms + "-" + ds, |ys|;
      && |r| == k + 6 && r[..k] == ys && r[k] == '-' && r[k + 3] == '-'
      && r[k + 1..k + 3] == ms && r[k + 4..] == ds
  {
    var r, k := ys + "-" + ms + "-" + ds, |ys|;
    assert r[..k] == ys;
    assert r[k + 1..k + 3] == ms;
    assert r[k + 4..] == ds;
  }

  /** Rendering the date of any date token writes its year without leading zeros and then the
      token's own `-MM-DD` characters. */
  lemma ShowDateOfAnyToken(tok: string)
    requires IsDateToken(tok)
    ensures ShowDate(Calendar(DateOf(tok))) == ShowNat(ValueOf(tok[..4])) + tok[4..]
  {
    TwoDigitRoundTrip(tok[5..7]);
    TwoDigitRoundTrip(tok[8..]);
    assert tok[4..] == "-" + tok[5..7] + "-" + tok[8..];
  }
}

=== FILE: options.dfy ===
/** The optional value used for JavaScript's `null`: a blank line's entry, an unset date. */
module Options {

  datatype Option<+T> = None | Some(value: T) {

    /** The wrapped value, or `default` when there is none. */
    function GetOr(default: T): T {
      match this
      case Some(v) => v
      case None => default
    }
  }
}

=== FILE: parser.dfy ===
/** `parse` and `parseLine`: the left-to-right prefix grammar of a todo.txt line, with the
    regular expressions `/^x\s+/`, `/^(\d{4}-\d{2}-\d{2})\s+/` and `/^\(([A-Z])\)\s+/` written as
    prefix scanners. */
module Parser {
  import opened Options
  import opened Text
  import opened Strings
  import opened Dates
  import opened Tags
  import opened Tasks

  /** A recognised prefix token, the whitespace run the greedy `\s+` takes after it, and the
      rest of the line. */
  datatype Lexeme = Lexeme(token: string, sep: string, rest: string)

  /** Cuts `s` into its first `n` characters, the whitespace run that starts there, and the
      rest, which starts with something other than whitespace. On a trimmed line the rest is
      non-empty and trimmed. */
  function Cut(s: string, n: nat): (m: Lexeme)
    requires n < |s| && IsWs(s[n])
    ensures m.token == s[..n]
    ensures m.sep != [] && AllWs(m.sep)
    ensures m.rest == [] || !IsWs(m.rest[0])
    ensures Trimmed(s) ==> m.rest != [] && Trimmed(m.rest)
  {
    var e := SkipWs(s, n);
    assert AllWs(s[n..e]) by {
      forall k | 0 <= k < e - n ensures IsWs(s[n..e][k]) {
        assert s[n..e][k] == s[n + k];
      }
    }
    assert e < |s| ==> s[e..][0] == s[e];
    assert e < |s| ==> s[e..][|s| - e - 1] == s[|s| - 1];
    Lexeme(s[..n], s[n..e], s[e..])
  }

  /** The three parts of a cut put back together give the string. */
  lemma CutRejoins(s: string, n: nat)
    requires n < |s| && IsWs(s[n])
    ensures var m := Cut(s, n); s == m.token + m.sep + m.rest
  {
    var e := SkipWs(s, n);
    assert s == s[..n] + s[n..e] + s[e..];
  }

  /** `m` is nothing, or a lexeme that leaves a non-empty, trimmed rest of a trimmed `s`. */
  predicate KeepsTrimmed(m: Option<Lexeme>, s: string) {
    m.Some? && s != [] && Trimmed(s) ==> m.value.rest != [] && Trimmed(m.value.rest)
  }

  /** `/^x\s+/`: the completion marker. */
  function LexComplete(s: string): (r: Option<Lexeme>)
    ensures r.Some? <==> |s| >= 2 && s[0] == 'x' && IsWs(s[1])
    ensures r.Some? ==> r.value.token == "x"
    ensures KeepsTrimmed(r, s)
  {
    if |s| >= 2 && s[0] == 'x' && IsWs(s[1]) then Some(Cut(s, 1)) else None
  }

  /** `/^(\d{4}-\d{2}-\d{2})\s+/`: a date token. */
  function LexDate(s: string): (r: Option<Lexeme>)
    ensures r.Some? <==> |s| >= 11 && IsDateToken(s[..10]) && IsWs(s[10])
    ensures r.Some? ==> IsDateToken(r.value.token)
    ensures KeepsTrimmed(r, s)
  {
    if |s| >= 11 && IsDateToken(s[..10]) && IsWs(s[10]) then Some(Cut(s, 10)) else None
  }

  /** `/^\(([A-Z])\)\s+/`: a priority, one upper-case letter in parentheses. */
  predicate IsPriorityToken(tok: string) {
    |tok| == 3 && tok[0] == '(' && IsUpper(tok[1]) && tok[2] == ')'
  }

  function LexPriority(s: string): (r: Option<Lexeme>)
    ensures r.Some? <==> |s| >= 4 && IsPriorityToken(s[..3]) && IsWs(s[3])
    ensures r.Some? ==> IsPriorityToken(r.value.token)
    ensures KeepsTrimmed(r, s)
  {
    if |s| >= 4 && IsPriorityToken(s[..3]) && IsWs(s[3]) then Some(Cut(s, 3)) else None
  }

  /** The characters a lexeme consumed: its token and the whitespace after it. */
  function Spelled(m: Option<Lexeme>): string {
    match m
    case Some(x) => x.token + x.sep
    case None => ""
  }

  /** What is left after an optional lexeme of `s`. */
  function After(m: Option<Lexeme>, s: string): string {
    match m
    case Some(x) => x.rest
    case None => s
  }

  /** What each scanner consumed, followed by what it left, is the string it scanned. */
  lemma ScannersRejoin(s: string)
    ensures s == Spelled(LexComplete(s)) + After(LexComplete(s), s)
    ensures s == Spelled(LexDate(s)) + After(LexDate(s), s)
    ensures s == Spelled(LexPriority(s)) + After(LexPriority(s), s)
  {
    CutRejoinsSpelled(LexComplete(s), s, 1);
    CutRejoinsSpelled(LexDate(s), s, 10);
    CutRejoinsSpelled(LexPriority(s), s, 3);
  }

  /** A lexeme that is absent or the cut of `s` at `n` spells out `s` with what it leaves. */
  lemma CutRejoinsSpelled(m: Option<Lexeme>, s: string, n: nat)
    requires m.Some? ==> n < |s| && IsWs(s[n]) && m.value == Cut(s, n)
    ensures s == Spelled(m) + After(m, s)
  {
    if m.Some? {
      CutRejoins(s, n);
    }
  }

  /** `m` is nothing, or a lexeme whose separator is a non-empty whitespace run. */
  predicate SepOk(m: Option<Lexeme>) {
    m.None? || (m.value.sep != [] && AllWs(m.value.sep))
  }

  /** The prefixes `parseLine` strips from a trimmed line, in order, and the text left. */
  datatype Layout = Layout(
    complete: Option<Lexeme>,
    completeDate: Option<Lexeme>,
    priority: Option<Lexeme>,
    date: Option<Lexeme>,
    text: string)

  /** The prefix grammar: the completion marker; a date right after it, and only then; a
      priority; a date. Each step is tried on what the previous steps left, and on a trimmed
      line what is left at the end is a non-empty, trimmed text. A prefix that is present is
      taken: the marker exactly when the line starts with one, the completion date whenever
      one follows the marker, and a priority or date is never left at the head of the text. */
  function Lex(line: string): (p: Layout)
    ensures p.complete.Some? <==> |line| >= 2 && line[0] == 'x' && IsWs(line[1])
    ensures p.complete.Some? && p.completeDate.None? ==> LexDate(p.complete.value.rest).None?
    ensures p.complete.Some? && p.completeDate.None? && p.priority.None? ==> p.date.None?
    ensures SepOk(p.complete) && SepOk(p.completeDate) && SepOk(p.priority) && SepOk(p.date)
    ensures p.date.None? ==> LexDate(p.text).None?
    ensures p.priority.None? && p.date.None? ==> LexPriority(p.text).None?
    ensures p.complete.Some? ==> p.complete.value.token == "x"
    ensures p.completeDate.Some? ==> p.complete.Some?
    ensures p.completeDate.Some? ==> IsDateToken(p.completeDate.value.token)
    ensures p.date.Some? ==> IsDateToken(p.date.value.token)
    ensures p.priority.Some? ==> IsPriorityToken(p.priority.value.token)
    ensures line != [] && Trimmed(line) ==> p.text != [] && Trimmed(p.text)
  {
    var complete := LexComplete(line);
    var s1 := After(complete, line);
    var completeDate := if complete.Some? then LexDate(s1) else None;
    var s2 := After(completeDate, s1);
    var priority := LexPriority(s2);
    var s3 := After(priority, s2);
    var date := LexDate(s3);
    Layout(complete, completeDate, priority, date, After(date, s3))
  }

  /** `Lex` from the results of its four steps. This is a single unfolding of `Lex`, stated
      so that the round-trip proofs can name the steps without unfolding it themselves. */
  lemma LexSteps(line: string, complete: Option<Lexeme>, completeDate: Option<Lexeme>,
                 priority: Option<Lexeme>, date: Option<Lexeme>)
    requires LexComplete(line) == complete
    requires completeDate == if complete.Some? then LexDate(After(complete, line)) else None
    requires LexPriority(After(completeDate, After(complete, line))) == priority
    requires LexDate(After(priority, After(completeDate, After(complete, line)))) == date
    ensures Lex(line) == Layout(complete, completeDate, priority, date,
                                After(date, After(priority, After(completeDate, After(complete, line)))))
  {
  }

  /** The steps of `Lex` consume the line from the left: the consumed parts and the text put
      back together give the line. */
  lemma LexConsumes(line: string)
    ensures var p := Lex(line);
      line == Spelled(p.complete) + (Spelled(p.completeDate) + (Spelled(p.priority) + (Spelled(p.date) + p.text)))
  {
    ScannersRejoin(line);
    var s1 := After(LexComplete(line), line);
    ScannersRejoin(s1);
    var s2 := if LexComplete(line).Some? then After(LexDate(s1), s1) else s1;
    ScannersRejoin(s2);
    ScannersRejoin(After(LexPriority(s2), s2));
  }

  function DateOfLexeme(m: Option<Lexeme>): Option<Date>
    requires m.Some? ==> IsDateToken(m.value.token)
  {
    match m
    case Some(x) => Some(DateOf(x.token))
    case None => None
  }

  function PriorityOf(m: Option<Lexeme>): string
    requires m.Some? ==> IsPriorityToken(m.value.token)
  {
    match m
    case Some(x) => [x.token[1]]
    case None => ""
  }

  /** The properties `parseLine` hands to `todoItem` for a layout: complete when the marker
      was found, the dates of the date tokens, the letter of the priority token, the text. */
  function Read(p: Layout, number: nat): (f: Fields)
    requires p.completeDate.Some? ==> IsDateToken(p.completeDate.value.token)
    requires p.date.Some? ==> IsDateToken(p.date.value.token)
    requires p.priority.Some? ==> IsPriorityToken(p.priority.value.token)
    ensures f.number == Some(number) && f.text == p.text
    ensures f.complete <==> p.complete.Some?
    ensures f.completeDate.Some? <==> p.completeDate.Some?
    ensures f.date.Some? <==> p.date.Some?
    ensures p.priority.None? ==> f.priority == ""
    ensures p.priority.Some? ==> |f.priority| == 1 && IsUpper(f.priority[0]) && f.priority == p.priority.value.token[1..2]
  {
    Fields(Some(number), p.complete.Some?, DateOfLexeme(p.completeDate), PriorityOf(p.priority),
           DateOfLexeme(p.date), p.text)
  }

  /** `parseLine`: a line that trims to nothing is `null`. Otherwise its trimmed form is
      stripped of its prefixes, whatever is left is the non-empty, trimmed text, and the task
      is built by `MakeTask`, so its tag lists agree with the text. */
  function ParseLine(line: string, number: nat): (r: Option<Task>)
    ensures r.None? <==> AllWs(line)
    ensures r.Some? ==> r.value.number == Some(number) && Consistent(r.value)
    ensures r.Some? ==> r.value.text != [] && Trimmed(r.value.text)
    ensures r.Some? ==> r.value.priority == "" || (|r.value.priority| == 1 && IsUpper(r.value.priority[0]))
    ensures r.Some? && r.value.completeDate.Some? ==> r.value.complete
    ensures r.Some? ==> (r.value.complete <==> LexComplete(Trim(line)).Some?)
    ensures r.Some? ==> r.value.text == Lex(Trim(line)).text
    ensures r.Some? ==> (r.value.completeDate.Some? <==> Lex(Trim(line)).completeDate.Some?)
    ensures r.Some? ==> (r.value.date.Some? <==> Lex(Trim(line)).date.Some?)
    ensures r.Some? ==> r.value.priority == PriorityOf(Lex(Trim(line)).priority)
  {
    var l := Trim(line);
    if l == [] then None
    else
      Some(MakeTask(Read(Lex(l), number)))
  }

  /** `parse` on an array of lines: entry `i` is `null` exactly when line `i` is blank, and
      otherwise is the task of that line numbered `i + 1`, blank lines included in the count. */
  function ParseLines(lines: seq<string>): (r: seq<Option<Task>>)
    ensures |r| == |lines|
    ensures forall i :: 0 <= i < |r| ==> (r[i].None? <==> AllWs(lines[i]))
    ensures forall i :: 0 <= i < |r| && r[i].Some? ==> r[i].value.number == Some(LineNumber(i))
  {
    seq(|lines|, i requires 0 <= i < |lines| => ParseLine(lines[i], LineNumber(i)))
  }

  /** Lines are numbered from 1. */
  function LineNumber(i: nat): nat { i + 1 }

  /** Entry `i` of `ParseLines` is line `i` parsed as line number `i + 1`. */
  lemma ParseLinesAt(lines: seq<string>, i: nat)
    requires i < |lines|
    ensures ParseLines(lines)[i] == ParseLine(lines[i], LineNumber(i))
  {
  }

  /** The two inputs `parse` takes as text: one blob, or an array of lines. */
  datatype Source = Blob(content: string) | Lines(lines: seq<string>)

  /** `parse`: an array is parsed line by line; a blob is trimmed, gives no entries when blank,
      and is otherwise split at `\r?\n` into lines, one entry per line. */
  function Parse(src: Source): (r: seq<Option<Task>>)
    ensures src.Lines? ==> |r| == |src.lines|
    ensures src.Blob? && AllWs(src.content) ==> r == []
    ensures src.Blob? && !AllWs(src.content) ==>
      var pieces := SplitNl(Trim(src.content));
      && |r| == |pieces|
      && (forall i :: 0 <= i < |r| ==> (r[i].None? <==> AllWs(pieces[i])))
      && (forall i :: 0 <= i < |r| && r[i].Some? ==> r[i].value.number == Some(LineNumber(i)))
  {
    match src
    case Lines(lines) => ParseLines(lines)
    case Blob(content) =>
      var c := Trim(content);
      if c == [] then []
      else
        BlankLinesAgree(c);
        ParseLines(SplitLines(c))
  }

  /** Dropping the `\r` of a `\r\n` line end does not change whether a line is blank: `\r`
      is whitespace. */
  lemma BlankLinesAgree(c: string)
    ensures forall i :: 0 <= i < |SplitLines(c)| ==> (AllWs(SplitLines(c)[i]) <==> AllWs(SplitNl(c)[i]))
  {
    var lines := SplitLines(c);
    var pieces := SplitNl(c);
    forall i | 0 <= i < |lines|
      ensures AllWs(lines[i]) <==> AllWs(pieces[i])
    {
      if lines[i] != pieces[i] {
        assert pieces[i] == lines[i] + "\r";
      }
    }
  }

  /** A line that starts with a date but no completion marker gets that date as its own date,
      never as a completion date: the completion date is looked for only after `x`. */
  lemma BareDateIsNotCompletion(line: string, number: nat)
    requires LexDate(Trim(line)).Some?
    ensures var r := ParseLine(line, number);
      && r.Some? && !r.value.complete && r.value.completeDate.None? && r.value.priority == ""
      && r.value.date == Some(Calendar(DateOf(Trim(line)[..10])))
  {
    var l := Trim(line);
    assert IsDigit(l[0]) by {
      assert l[..10][0] == l[0];
    }
    assert LexComplete(l).None? && LexPriority(l).None?;
    var p := Lex(l);
    assert p.complete.None? && p.completeDate.None? && p.priority.None?;
    assert p.date == LexDate(l);
    assert LexDate(l).value.token == l[..10];
  }

  /** A line none of whose prefixes is recognised keeps the defaults: not complete, no
      priority, no dates, and its trimmed form as text. */
  lemma PlainLineDefaults(line: string, number: nat)
    requires !AllWs(line)
    requires LexComplete(Trim(line)).None? && LexPriority(Trim(line)).None? && LexDate(Trim(line)).None?
    ensures var r := ParseLine(line, number);
      && r.Some? && !r.value.complete && r.value.completeDate.None? && r.value.priority == ""
      && r.value.date.None? && r.value.text == Trim(line)
  {
  }

  /** A cut right before a whitespace run leaves exactly what follows the run. */
  lemma CutAtRun(a: string, ws: string, rest: string)
    requires ws != [] && AllWs(ws)
    requires rest == [] || !IsWs(rest[0])
    ensures Cut(a + ws + rest, |a|).rest == rest
  {
    var l := a + ws + rest;
    assert forall k :: |a| <= k < |a| + |ws| ==> l[k] == ws[k - |a|];
    assert rest != [] ==> l[|a| + |ws|] == rest[0];
    assert SkipWs(l, |a|) == |a| + |ws|;
    assert l[|a| + |ws|..] == rest;
  }

  /** `/^x\s+/` takes the whole whitespace run after the marker, tabs and repeated spaces
      included, so the text starts at the first character after it. */
  lemma MarkerTakesWhitespaceRun(ws: string, rest: string, number: nat)
    requires ws != [] && AllWs(ws)
    requires rest != [] && Trimmed(rest)
    requires LexDate(rest).None? && LexPriority(rest).None?
    ensures var r := ParseLine("x" + ws + rest, number);
      && r.Some? && r.value.complete && r.value.completeDate.None? && r.value.priority == ""
      && r.value.date.None? && r.value.text == rest
  {
    var l := "x" + ws + rest;
    assert l[0] == 'x' && l[1] == ws[0] && l[|l| - 1] == rest[|rest| - 1];
    TrimOfTrimmed(l);
    CutAtRun("x", ws, rest);
    var c := LexComplete(l);
    assert After(c, l) == rest;
    LexSteps(l, c, None, None, None);
  }

  /** `parseLine("x\t  foo")` is a complete task with the text "foo". */
  lemma MarkerWithTab()
    ensures var r := ParseLine("x\t  foo", 1);
      r.Some? && r.value.complete && r.value.text == "foo"
  {
    var ws, rest := "\t  ", "foo";
    assert AllWs(ws) by {
      assert ws[0] == '\t' && ws[1] == ' ' && ws[2] == ' ';
    }
    assert |rest| == 3 && rest[0] == 'f' && rest[2] == 'o';
    assert "x\t  foo" == "x" + ws + rest;
    MarkerTakesWhitespaceRun(ws, rest, 1);
  }
}

=== FILE: roundtrip.dfy ===
/** How `parseLine` and `stringifyItem` undo each other: a canonical line survives parsing and
    rendering, a well-formed task survives rendering and parsing, and so does a whole file. */
module RoundTrip {
  import opened Options
  import opened Text
  import opened Strings
  import opened Dates
  import opened Tags
  import opened Tasks
  import opened Parser
  import opened Stringifier

  /** A lexeme that is absent or followed by exactly one space. */
  predicate OneSpace(m: Option<Lexeme>) {
    m.None? || m.value.sep == " "
  }

  /** A date lexeme that is absent or whose year does not start with `0`. */
  predicate FullYear(m: Option<Lexeme>) {
    m.None? || (|m.value.token| > 0 && m.value.token[0] != '0')
  }

  /** A trimmed, non-blank line whose recognised prefixes are each followed by exactly one
      space and whose dates have four-digit years of at least 1000. */
  predicate Canonical(l: string) {
    l != [] && Trimmed(l) &&
    var p := Lex(l);
    OneSpace(p.complete) && OneSpace(p.completeDate) && OneSpace(p.priority) && OneSpace(p.date)
    && FullYear(p.completeDate) && FullYear(p.date)
  }

  /** Rendering the parsed date lexeme gives the lexeme's characters back. */
  lemma DateLexemeRoundTrip(m: Option<Lexeme>)
    requires m.Some? ==> IsDateToken(m.value.token)
    requires OneSpace(m) && FullYear(m)
    ensures var d := AsValue(DateOfLexeme(m));
      Spelled(m) == (if Emits(d) then ShowDate(d.value) + " " else "")
  {
    if m.Some? {
      ShowDateOf(m.value.token);
    }
  }

  /** The prefix fields of `t` are the ones read from the layout `p`. */
  predicate ReadFrom(t: Task, p: Layout) {
    && (p.complete.Some? ==> p.complete.value.token == "x")
    && (p.completeDate.Some? ==> IsDateToken(p.completeDate.value.token))
    && (p.date.Some? ==> IsDateToken(p.date.value.token))
    && (p.priority.Some? ==> IsPriorityToken(p.priority.value.token))
    && t.complete == p.complete.Some?
    && t.completeDate == AsValue(DateOfLexeme(p.completeDate))
    && t.priority == PriorityOf(p.priority)
    && t.date == AsValue(DateOfLexeme(p.date))
    && t.text == p.text
  }

  /** A layout whose lexemes are each followed by one space, with full years. */
  predicate SingleSpaced(p: Layout) {
    OneSpace(p.complete) && OneSpace(p.completeDate) && OneSpace(p.priority) && OneSpace(p.date)
    && FullYear(p.completeDate) && FullYear(p.date)
  }

  lemma CompletionPartOf(t: Task, p: Layout)
    requires ReadFrom(t, p) && SingleSpaced(p) && (p.completeDate.Some? ==> p.complete.Some?)
    ensures CompletionPart(t) == Spelled(p.complete) + Spelled(p.completeDate)
  {
    DateLexemeRoundTrip(p.completeDate);
    if p.complete.Some? {
      assert p.complete.value.token == "x";
      assert Spelled(p.complete) == "x ";
    }
  }

  lemma PriorityPartOf(t: Task, p: Layout)
    requires ReadFrom(t, p) && SingleSpaced(p)
    ensures PriorityPart(t) == Spelled(p.priority)
  {
    if p.priority.Some? {
      var tok := p.priority.value.token;
      assert tok == "(" + [tok[1]] + ")";
    }
  }

  lemma DatePartOf(t: Task, p: Layout)
    requires ReadFrom(t, p) && SingleSpaced(p)
    ensures DatePart(t) == Spelled(p.date)
  {
    DateLexemeRoundTrip(p.date);
  }

  /** Rendering a task read from a single-spaced layout spells the layout out again. */
  lemma RenderOfRead(t: Task, p: Layout)
    requires ReadFrom(t, p) && SingleSpaced(p) && (p.completeDate.Some? ==> p.complete.Some?)
    ensures Render(t) == Spelled(p.complete) + (Spelled(p.completeDate) + (Spelled(p.priority) + (Spelled(p.date) + p.text)))
  {
    CompletionPartOf(t, p);
    PriorityPartOf(t, p);
    DatePartOf(t, p);
    Regroup(Spelled(p.complete), Spelled(p.completeDate), Spelled(p.priority) + Spelled(p.date), p.text);
    Regroup(Spelled(p.complete) + Spelled(p.completeDate), Spelled(p.priority), Spelled(p.date), p.text);
    Regroup(Spelled(p.priority), Spelled(p.date), p.text, "");
    Regroup(Spelled(p.complete), Spelled(p.completeDate), Spelled(p.priority) + (Spelled(p.date) + p.text), "");
  }

  /** The task `parseLine` builds from a trimmed, non-blank line holds the prefix fields of
      that line's layout. */
  lemma ParseLineReads(l: string, number: nat)
    requires l != [] && Trimmed(l)
    ensures ParseLine(l, number).Some? && ReadFrom(ParseLine(l, number).value, Lex(l))
  {
    TrimOfTrimmed(l);
    assert ParseLine(l, number) == Some(MakeTask(Read(Lex(l), number)));
  }

  /** Text to record to text: `stringifyItem(parseLine(l)) == l` for every canonical line. */
  lemma LineRoundTrip(l: string, number: nat)
    requires Canonical(l)
    ensures StringifyItem(ParseLine(l, number)) == Some(l)
  {
    ParseLineReads(l, number);
    RenderOfRead(ParseLine(l, number).value, Lex(l));
    LexConsumes(l);
  }

  /** A date field the parser can read back: unset, or a calendar date with a four-digit
      year and a month and day below 100. */
  predicate FullDate(d: Option<DateValue>) {
    d.None? || (d.value.Calendar? && 1000 <= d.value.date.year <= 9999
                && d.value.date.month < 100 && d.value.date.day < 100)
  }

  /** The prefix fields of a task the parser can read back from its rendering: a priority
      of one upper-case letter or none, readable dates, no completion date on an open task,
      no creation date that would be read as the completion date, a trimmed non-empty text,
      and a text that does not itself start with a prefix the parser would take. */
  predicate Unambiguous(t: Task) {
    && (t.priority == "" || (|t.priority| == 1 && IsUpper(t.priority[0])))
    && FullDate(t.completeDate) && FullDate(t.date)
    && (!t.complete ==> t.completeDate.None?)
    && (t.complete && t.completeDate.None? && t.priority == "" ==> t.date.None?)
    && t.text != [] && Trimmed(t.text)
    && (t.date.None? ==> LexDate(t.text).None?)
    && (t.date.None? && t.priority == "" ==> LexPriority(t.text).None?)
    && (!t.complete && t.date.None? && t.priority == "" ==> LexComplete(t.text).None?)
  }

  /** A task whose rendering parses back to it: unambiguous prefix fields and tag lists that
      agree with its text. */
  predicate WellFormed(t: Task) {
    Unambiguous(t) && Consistent(t)
  }

  /** `s` starts with something other than whitespace. */
  predicate Leads(s: string) {
    s != [] && !IsWs(s[0])
  }

  /** `Cut` after a token followed by a single space and a non-whitespace character. */
  lemma CutOneSpace(s: string, n: nat)
    requires n + 1 < |s| && s[n] == ' ' && !IsWs(s[n + 1])
    ensures Cut(s, n) == Lexeme(s[..n], " ", s[n + 1..])
  {
    assert SkipWs(s, n + 1) == n + 1;
  }

  /** A rendered calendar date, one space and a rest that leads, starts with a digit. */
  lemma ShownDateLeads(d: Date, rest: string)
    requires Leads(rest)
    ensures var s := ShowDate(Calendar(d)) + " " + rest;
      Leads(s) && IsDigit(s[0])
  {
    var s := ShowDate(Calendar(d)) + " " + rest;
    assert s[0] == (ShowNat(d.year) + "-")[0];
  }

  /** A rendered calendar date, one space and a rest that leads is read as a date lexeme. */
  lemma LexShownDate(d: Date, rest: string)
    requires 1000 <= d.year <= 9999 && d.month < 100 && d.day < 100
    requires Leads(rest)
    ensures var tok := ShowDate(Calendar(d));
      LexDate(tok + " " + rest) == Some(Lexeme(tok, " ", rest))
  {
    DateOfShowDate(d);
    var tok := ShowDate(Calendar(d));
    var s := tok + " " + rest;
    assert s[..10] == tok && s[10] == ' ' && s[11] == rest[0];
    CutOneSpace(s, 10);
    assert s[11..] == rest;
  }

  /** A rendered priority, one space and a rest that leads is read as a priority lexeme. */
  lemma LexShownPriority(p: string, rest: string)
    requires |p| == 1 && IsUpper(p[0])
    requires Leads(rest)
    ensures LexPriority("(" + p + ") " + rest) == Some(Lexeme("(" + p + ")", " ", rest))
  {
    var s := "(" + p + ") " + rest;
    assert s[..3] == "(" + p + ")" && s[3] == ' ' && s[4] == rest[0];
    CutOneSpace(s, 3);
    assert s[4..] == rest;
  }

  /** `x`, one space and a rest that leads is read as the completion marker. */
  lemma LexShownMarker(rest: string)
    requires Leads(rest)
    ensures LexComplete("x " + rest) == Some(Lexeme("x", " ", rest))
  {
    var s := "x " + rest;
    assert s[2] == rest[0];
    CutOneSpace(s, 1);
    assert s[2..] == rest;
  }

  /** No date token starts with a character other than a digit. */
  lemma NoDateAt(s: string)
    requires s != [] && !IsDigit(s[0])
    ensures LexDate(s).None?
  {
    if |s| >= 11 {
      assert s[..10][0] == s[0];
    }
  }

  /** No priority token starts with a digit. */
  lemma NoPriorityAt(s: string)
    requires s != [] && IsDigit(s[0])
    ensures LexPriority(s).None?
  {
    if |s| >= 4 {
      assert s[..3][0] == s[0];
    }
  }

  /** What the date scanner sees: the date part and the text. */
  function DateSeg(t: Task): string { DatePart(t) + t.text }

  /** What the priority scanner sees. */
  function PrioritySeg(t: Task): string { PriorityPart(t) + DateSeg(t) }

  /** What the completion-date scanner sees on a complete task. */
  function CompletionDateSeg(t: Task): string {
    (if Emits(t.completeDate) then ShowDate(t.completeDate.value) + " " else "") + PrioritySeg(t)
  }

  lemma DateSegShape(t: Task)
    requires Unambiguous(t)
    ensures Leads(DateSeg(t))
    ensures t.date.None? ==> DateSeg(t) == t.text
    ensures t.date.Some? ==> IsDigit(DateSeg(t)[0]) && DateSeg(t) == ShowDate(t.date.value) + " " + t.text
  {
    if t.date.Some? {
      ShownDateLeads(t.date.value.date, t.text);
    }
  }

  lemma PrioritySegShape(t: Task)
    requires Unambiguous(t)
    ensures Leads(PrioritySeg(t))
    ensures t.priority == "" ==> PrioritySeg(t) == DateSeg(t)
    ensures t.priority != "" ==>
      PrioritySeg(t)[0] == '(' && PrioritySeg(t) == "(" + t.priority + ") " + DateSeg(t)
  {
    var pp, ds := PriorityPart(t), DateSeg(t);
    assert PrioritySeg(t) == pp + ds;
    if t.priority == "" {
      DateSegShape(t);
      assert pp + ds == ds;
    } else {
      assert pp == "(" + t.priority + ") ";
      assert (pp + ds)[0] == pp[0] == '(';
    }
  }

  lemma CompletionDateSegShape(t: Task)
    requires Unambiguous(t)
    ensures Leads(CompletionDateSeg(t))
    ensures t.completeDate.None? ==> CompletionDateSeg(t) == PrioritySeg(t)
    ensures t.completeDate.Some? ==>
      CompletionDateSeg(t) == ShowDate(t.completeDate.value) + " " + PrioritySeg(t)
  {
    PrioritySegShape(t);
    if t.completeDate.Some? {
      ShownDateLeads(t.completeDate.value.date, PrioritySeg(t));
    }
  }

  /** Concatenation regrouped to the right. */
  lemma Regroup(a: string, b: string, c: string, d: string)
    ensures a + b + c + d == a + (b + (c + d))
    ensures a + b + c == a + (b + c)
  {
  }

  /** A string that leads and ends with a trimmed non-empty text is trimmed. */
  lemma EndsTrimmed(s: string, text: string)
    requires Leads(s) && text != [] && Trimmed(text)
    requires |s| >= |text| && s[|s| - |text|..] == text
    ensures Trimmed(s)
  {
    assert s[|s| - 1] == s[|s| - |text|..][|text| - 1];
  }

  /** `x ` and anything leads. */
  lemma MarkerLeads(rest: string)
    ensures Leads("x " + rest)
  {
    assert ("x " + rest)[0] == 'x';
  }

  /** The rendering is the completion part followed by what the priority scanner sees. */
  lemma RenderSplit(t: Task)
    ensures Render(t) == CompletionPart(t) + PrioritySeg(t)
  {
    Regroup(CompletionPart(t), PriorityPart(t), DatePart(t), t.text);
  }

  /** The completion part of a complete task followed by what the priority scanner sees. */
  lemma CompletionSplit(t: Task)
    requires t.complete
    ensures CompletionPart(t) + PrioritySeg(t) == "x " + CompletionDateSeg(t)
  {
    var c := if Emits(t.completeDate) then ShowDate(t.completeDate.value) + " " else "";
    assert CompletionPart(t) == "x " + c;
    Regroup("x ", c, PrioritySeg(t), "");
  }

  lemma RenderShape(t: Task)
    requires Unambiguous(t)
    ensures Render(t) != [] && Trimmed(Render(t))
    ensures !t.complete ==> Render(t) == PrioritySeg(t)
    ensures t.complete ==> Render(t) == "x " + CompletionDateSeg(t)
  {
    RenderSplit(t);
    if t.complete {
      CompletionSplit(t);
      MarkerLeads(CompletionDateSeg(t));
    } else {
      PrioritySegShape(t);
    }
    EndsTrimmed(Render(t), t.text);
  }

  lemma DateStage(t: Task)
    requires Unambiguous(t)
    ensures LexDate(DateSeg(t)) ==
      if t.date.Some? then Some(Lexeme(ShowDate(t.date.value), " ", t.text)) else None
  {
    DateSegShape(t);
    if t.date.Some? {
      LexShownDate(t.date.value.date, t.text);
    }
  }

  lemma PriorityStage(t: Task)
    requires Unambiguous(t)
    ensures LexPriority(PrioritySeg(t)) ==
      if t.priority != "" then Some(Lexeme("(" + t.priority + ")", " ", DateSeg(t))) else None
  {
    DateSegShape(t);
    PrioritySegShape(t);
    if t.priority != "" {
      LexShownPriority(t.priority, DateSeg(t));
    } else if t.date.Some? {
      NoPriorityAt(DateSeg(t));
    }
  }

  lemma CompletionDateStage(t: Task)
    requires Unambiguous(t) && t.complete
    ensures LexDate(CompletionDateSeg(t)) ==
      if t.completeDate.Some? then Some(Lexeme(ShowDate(t.completeDate.value), " ", PrioritySeg(t))) else None
  {
    CompletionDateSegShape(t);
    PrioritySegShape(t);
    if t.completeDate.Some? {
      LexShownDate(t.completeDate.value.date, PrioritySeg(t));
    } else if t.priority != "" {
      NoDateAt(PrioritySeg(t));
    } else {
      DateSegShape(t);
    }
  }

  lemma CompletionStage(t: Task)
    requires Unambiguous(t)
    ensures LexComplete(Render(t)) ==
      if t.complete then Some(Lexeme("x", " ", CompletionDateSeg(t))) else None
  {
    RenderShape(t);
    PrioritySegShape(t);
    if t.complete {
      CompletionDateSegShape(t);
      LexShownMarker(CompletionDateSeg(t));
    } else if t.priority != "" {
      assert Render(t)[0] == '(';
    } else if t.date.Some? {
      DateSegShape(t);
      assert IsDigit(Render(t)[0]);
    }
  }

  /** The prefixes the parser finds on the rendering of an unambiguous task are exactly the
      ones rendering wrote, and the text is the task's own. */
  lemma LexRendered(t: Task)
    requires Unambiguous(t)
    ensures Lex(Render(t)) == RenderedLayout(t)
  {
    var s := Render(t);
    var p := RenderedLayout(t);
    CompletionStage(t);
    assert After(p.complete, s) == if t.complete then CompletionDateSeg(t) else PrioritySeg(t) by {
      RenderShape(t);
    }
    if t.complete {
      CompletionDateStage(t);
      CompletionDateSegShape(t);
    }
    assert After(p.completeDate, After(p.complete, s)) == PrioritySeg(t);
    PriorityStep(t);
    DateStep(t);
    LexSteps(s, p.complete, p.completeDate, p.priority, p.date);
  }

  /** What the priority scanner finds on the priority segment, and what it leaves. */
  lemma PriorityStep(t: Task)
    requires Unambiguous(t)
    ensures LexPriority(PrioritySeg(t)) ==
      if t.priority != "" then Some(Lexeme("(" + t.priority + ")", " ", DateSeg(t))) else None
    ensures After(LexPriority(PrioritySeg(t)), PrioritySeg(t)) == DateSeg(t)
  {
    PriorityStage(t);
    PrioritySegShape(t);
  }

  /** What the date scanner finds on the date segment, and what it leaves. */
  lemma DateStep(t: Task)
    requires Unambiguous(t)
    ensures LexDate(DateSeg(t)) ==
      if t.date.Some? then Some(Lexeme(ShowDate(t.date.value), " ", t.text)) else None
    ensures After(LexDate(DateSeg(t)), DateSeg(t)) == t.text
  {
    DateStage(t);
    DateSegShape(t);
  }

  /** The priority read back from a rendered priority is the letter rendered. */
  lemma PriorityOfShown(p: string, rest: string)
    requires |p| == 1 && IsUpper(p[0])
    ensures PriorityOf(Some(Lexeme("(" + p + ")", " ", rest))) == p
  {
    assert ("(" + p + ")")[1] == p[0];
  }

  /** The date read back from a rendered date field is the date rendered. */
  lemma DateOfShown(v: Option<DateValue>, rest: string)
    requires FullDate(v)
    ensures var m := if v.Some? then Some(Lexeme(ShowDate(v.value), " ", rest)) else None;
      (m.Some? ==> IsDateToken(m.value.token)) && DateOfLexeme(m) == CalendarOf(v)
  {
    if v.Some? {
      DateOfShowDate(v.value.date);
    }
  }

  /** The properties `todoItem` is given for a task with readable dates. */
  function TaskFields(t: Task, number: nat): Fields
    requires FullDate(t.completeDate) && FullDate(t.date)
  {
    Fields(Some(number), t.complete, CalendarOf(t.completeDate), t.priority, CalendarOf(t.date), t.text)
  }

  /** The layout rendering writes for a task: the prefixes it emits, each followed by one
      space and by what comes after it. */
  function RenderedLayout(t: Task): Layout {
    Layout(
      if t.complete then Some(Lexeme("x", " ", CompletionDateSeg(t))) else None,
      if t.completeDate.Some? then Some(Lexeme(ShowDate(t.completeDate.value), " ", PrioritySeg(t))) else None,
      if t.priority != "" then Some(Lexeme("(" + t.priority + ")", " ", DateSeg(t))) else None,
      if t.date.Some? then Some(Lexeme(ShowDate(t.date.value), " ", t.text)) else None,
      t.text)
  }

  /** Reading the rendered layout gives back the properties the task was rendered from. */
  lemma ReadRenderedLayout(t: Task, number: nat)
    requires Unambiguous(t)
    ensures var p := RenderedLayout(t);
      && (p.completeDate.Some? ==> IsDateToken(p.completeDate.value.token))
      && (p.date.Some? ==> IsDateToken(p.date.value.token))
      && (p.priority.Some? ==> IsPriorityToken(p.priority.value.token))
      && Read(p, number) == TaskFields(t, number)
  {
    var p := RenderedLayout(t);
    DateOfShown(t.completeDate, PrioritySeg(t));
    DateOfShown(t.date, t.text);
    if t.priority != "" {
      PriorityOfShown(t.priority, DateSeg(t));
    }
  }

  /** The parser hands `todoItem` exactly the properties the rendering was made from. */
  lemma FieldsRoundTrip(t: Task, number: nat)
    requires Unambiguous(t)
    ensures Read(Lex(Render(t)), number) == TaskFields(t, number)
  {
    LexRendered(t);
    ReadRenderedLayout(t, number);
  }

  /** Record to text to record: parsing the rendering of a well-formed task gives the task
      back, numbered as the line it was parsed from. */
  lemma TaskRoundTrip(t: Task, number: nat)
    requires WellFormed(t)
    ensures ParseLine(Render(t), number) == Some(t.(number := Some(number)))
  {
    var s := Render(t);
    RenderShape(t);
    TrimOfTrimmed(s);
    FieldsRoundTrip(t, number);
    assert ParseLine(s, number) == Some(MakeTask(TaskFields(t, number)));
    MakeTaskOfConsistent(t.(number := Some(number)));
  }

  /** Parsing an array of blank and canonical lines and stringifying the result gives the
      lines joined by newlines: blank entries come back as empty lines. */
  lemma LinesRoundTrip(lines: seq<string>)
    requires forall i :: 0 <= i < |lines| ==> lines[i] == "" || Canonical(lines[i])
    ensures Stringify(List(Parse(Lines(lines)))) == JoinNl(lines)
  {
    var items := Parse(Lines(lines));
    assert items == ParseLines(lines);
    assert |items| == |lines|;
    var out := seq(|items|, i requires 0 <= i < |items| => LineOf(items[i]));
    forall i | 0 <= i < |lines|
      ensures out[i] == lines[i]
    {
      ParseLinesAt(lines, i);
      LineOfParsed(lines[i], LineNumber(i));
    }
    assert out == lines;
    assert Stringify(List(items)) == JoinNl(out);
  }

  /** One entry of the list round trip. */
  lemma LineOfParsed(l: string, number: nat)
    requires l == "" || Canonical(l)
    ensures LineOf(ParseLine(l, number)) == l
  {
    if l != "" {
      LineRoundTrip(l, number);
    }
  }

  /** `stringify(parse(s)) == s` for a trimmed, non-blank file whose lines are each empty or
      canonical. */
  lemma FileRoundTrip(s: string)
    requires !AllWs(s) && Trimmed(s)
    requires forall i :: 0 <= i < |SplitNl(s)| ==> SplitNl(s)[i] == "" || Canonical(SplitNl(s)[i])
    ensures Stringify(List(Parse(Blob(s)))) == s
  {
    TrimOfTrimmed(s);
    var pieces := SplitNl(s);
    var lines := SplitLines(s);
    assert lines == pieces;
    LinesRoundTrip(pieces);
    JoinSplitNl(s);
  }
}

=== FILE: stringifier.dfy ===
/** `stringify`, `stringifyItem`: the canonical text of a task, `x [cdate ](P) [date ]text`, and
    of a list of tasks, one line each. */
module Stringifier {
  import opened Options
  import opened Strings
  import opened Dates
  import opened Tasks

  /** JavaScript truthiness of a date field: an unset field and the empty string are falsy;
      a calendar date is always truthy. */
  predicate Emits(d: Option<DateValue>)
    ensures Emits(d) <==> d.Some? && ShowDate(d.value) != ""
  {
    d.Some? && d.value != Literal("")
  }

  /** `x ` and, when set, the completion date and a space; nothing for an open task. */
  function CompletionPart(t: Task): (r: string)
    ensures r != "" <==> t.complete
    ensures t.complete ==> |r| >= 2 && r[0] == 'x' && r[1] == ' '
    ensures t.complete && !Emits(t.completeDate) ==> r == "x "
    ensures t.complete && Emits(t.completeDate) ==> |r| == |ShowDate(t.completeDate.value)| + 3 && r[|r| - 1] == ' '
  {
    if !t.complete then ""
    else "x " + (if Emits(t.completeDate) then ShowDate(t.completeDate.value) + " " else "")
  }

  /** `(P) ` for a non-empty priority. */
  function PriorityPart(t: Task): (r: string)
    ensures r == "" <==> t.priority == ""
    ensures r != "" ==> |r| == |t.priority| + 3 && r[0] == '(' && r[|r| - 2] == ')' && r[|r| - 1] == ' '
  {
    if t.priority == "" then "" else "(" + t.priority + ") "
  }

  /** The task's own date and a space, when set. */
  function DatePart(t: Task): (r: string)
    ensures r == "" <==> !Emits(t.date)
    ensures r != "" ==> |r| == |ShowDate(t.date.value)| + 1 && r[|r| - 1] == ' '
  {
    if Emits(t.date) then ShowDate(t.date.value) + " " else ""
  }

  /** `stringifyItem` on a task: the completion part, the priority part, the date part and
      the text, in that order. The text ends the line unchanged, and a completed task's line
      starts with `x `. */
  function Render(t: Task): (r: string)
    ensures |r| >= |t.text| && r[|r| - |t.text|..] == t.text
    ensures t.complete ==> |r| >= 2 && r[..2] == "x "
  {
    CompletionPart(t) + PriorityPart(t) + DatePart(t) + t.text
  }

  /** `stringifyItem`: `null` for `null`, the rendered line for a task. */
  function StringifyItem(item: Option<Task>): (r: Option<string>)
    ensures r.None? <==> item.None?
    ensures item.Some? ==> r.value == Render(item.value)
  {
    match item
    case None => None
    case Some(t) => Some(Render(t))
  }

  /** The line an entry of a list contributes: `Array.prototype.join` writes `null` as the
      empty string. */
  function LineOf(item: Option<Task>): (r: string)
    ensures item.None? ==> r == ""
    ensures item.Some? ==> r == Render(item.value)
  {
    StringifyItem(item).GetOr("")
  }

  /** The two shapes `stringify` accepts: one task, or an array of tasks and `null`s. */
  datatype Input = Single(task: Task) | List(items: seq<Option<Task>>)

  /** `stringify`: one task gives its line; an array gives its entries' lines joined with
      `\n`, with no newline at the end, and the empty string when it is empty. */
  function Stringify(input: Input): (r: string)
    ensures input.List? && input.items == [] ==> r == ""
    ensures input.List? && |input.items| == 1 ==> r == LineOf(input.items[0])
    ensures input.Single? ==> r == Render(input.task)
  {
    match input
    case Single(t) => Render(t)
    case List(items) => JoinNl(seq(|items|, i requires 0 <= i < |items| => LineOf(items[i])))
  }

  /** Splitting the output of `stringify` on an array at its newlines gives back one line per
      entry, the empty line for `null`, when no rendered line has a newline of its own. */
  lemma StringifyListLines(items: seq<Option<Task>>)
    requires |items| >= 1
    requires forall i :: 0 <= i < |items| ==> '\n' !in LineOf(items[i])
    ensures var lines := SplitNl(Stringify(List(items)));
      && |lines| == |items|
      && forall i :: 0 <= i < |items| ==> lines[i] == LineOf(items[i]) && (items[i].None? ==> lines[i] == "")
  {
    SplitJoinNl(seq(|items|, i requires 0 <= i < |items| => LineOf(items[i])));
  }

  /** A task that is not complete renders the same whatever its completion date holds: a
      stale completion date is never written. */
  lemma OpenTaskHidesCompletionDate(t: Task, d: Option<DateValue>)
    requires !t.complete
    ensures Render(t.(completeDate := d)) == Render(t)
    ensures Render(t) == PriorityPart(t) + DatePart(t) + t.text
  {
  }

  /** A completion date is written only when the task is complete, and then right after `x `. */
  lemma CompletionDatePlacement(t: Task)
    requires t.complete && t.completeDate.Some? && t.completeDate.value.Calendar?
    ensures var d := ShowDate(t.completeDate.value);
      Render(t)[..2 + |d| + 1] == "x " + d + " "
  {
    var d := ShowDate(t.completeDate.value);
    var cp, rest := CompletionPart(t), PriorityPart(t) + DatePart(t) + t.text;
    assert cp == "x " + d + " ";
    RenderSplit(t);
    PrefixOfConcat(cp, rest);
  }

  /** The completion part ends where the rest of the line begins. */
  lemma RenderSplit(t: Task)
    ensures Render(t) == CompletionPart(t) + (PriorityPart(t) + DatePart(t) + t.text)
  {
    Regroup(CompletionPart(t), PriorityPart(t), DatePart(t), t.text);
  }

  lemma Regroup(a: string, b: string, c: string, d: string)
    ensures a + b + c + d == a + (b + c + d)
  {
  }

  lemma PrefixOfConcat(a: string, b: string)
    ensures (a + b)[..|a|] == a
  {
  }
}

=== FILE: strings.dfy ===
/** Substring search and line splitting: JavaScript's `indexOf`, `split` and `join` on strings. */
module Strings {

  /** `pat` occurs in `s` starting at position `i`. */
  predicate OccursAt(s: string, pat: string, i: int) {
    0 <= i && i + |pat| <= |s| && s[i..i + |pat|] == pat
  }

  predicate Contains(s: string, pat: string) {
    exists i :: 0 <= i <= |s| && OccursAt(s, pat, i)
  }

  /** `s.indexOf(pat)`: the leftmost position where `pat` occurs, or -1 when it does not. */
  function IndexOf(s: string, pat: string): (r: int)
    ensures r == -1 <==> !Contains(s, pat)
    ensures r != -1 ==> OccursAt(s, pat, r) && forall j :: 0 <= j < r ==> !OccursAt(s, pat, j)
  {
    IndexFrom(s, pat, 0)
  }

  /** The search of `IndexOf`, started at position `from`. */
  function IndexFrom(s: string, pat: string, from: nat): (r: int)
    ensures r == -1 <==> forall j :: from <= j ==> !OccursAt(s, pat, j)
    ensures r != -1 ==> from <= r && OccursAt(s, pat, r)
    ensures r != -1 ==> forall j :: from <= j < r ==> !OccursAt(s, pat, j)
    decreases |s| - from
  {
    if from + |pat| > |s| then -1
    else if s[from..from + |pat|] == pat then
      assert OccursAt(s, pat, from);
      from
    else IndexFrom(s, pat, from + 1)
  }

  /** `xs.join("\n")`: the pieces separated by newlines; no pieces give the empty string. */
  function JoinNl(xs: seq<string>): (r: string)
    ensures |xs| == 0 ==> r == ""
    ensures |xs| > 0 ==> xs[0] <= r
    decreases |xs|
  {
    if |xs| == 0 then ""
    else if |xs| == 1 then xs[0]
    else xs[0] + "\n" + JoinNl(xs[1..])
  }

  /** `s.split("\n")`: the newline-free pieces between newlines, at least one of them. */
  function SplitNl(s: string): (r: seq<string>)
    ensures |r| >= 1
    ensures forall i :: 0 <= i < |r| ==> '\n' !in r[i]
    decreases |s|
  {
    if |s| == 0 then [""]
    else
      var rest := SplitNl(s[1..]);
      if s[0] == '\n' then [""] + rest
      else [[s[0]] + rest[0]] + rest[1..]
  }

  /** Joining the pieces with newlines gives back the string that was split. */
  lemma {:induction false} JoinSplitNl(s: string)
    ensures JoinNl(SplitNl(s)) == s
    decreases |s|
  {
    if |s| > 0 {
      var rest := SplitNl(s[1..]);
      JoinSplitNl(s[1..]);
      if s[0] == '\n' {
        assert s == "\n" + s[1..];
      } else {
        var r := [[s[0]] + rest[0]] + rest[1..];
        assert |rest| > 1 ==> JoinNl(rest) == rest[0] + "\n" + JoinNl(rest[1..]);
        assert |rest| > 1 ==> r[1..] == rest[1..];
        assert s == [s[0]] + s[1..];
      }
    }
  }

  /** A piece without newlines splits to itself. */
  lemma {:induction false} SplitNlPiece(a: string)
    requires '\n' !in a
    ensures SplitNl(a) == [a]
    decreases |a|
  {
    if |a| > 0 {
      SplitNlPiece(a[1..]);
      assert [a[0]] + a[1..] == a;
    }
  }

  /** One newline after a newline-free piece splits it off. */
  lemma {:induction false} SplitNlPrefix(a: string, b: string)
    requires '\n' !in a
    ensures SplitNl(a + "\n" + b) == [a] + SplitNl(b)
    decreases |a|
  {
    if |a| == 0 {
      assert "" + "\n" + b == "\n" + b;
      assert ("\n" + b)[1..] == b;
    } else {
      SplitNlPrefix(a[1..], b);
      assert (a + "\n" + b)[1..] == a[1..] + "\n" + b;
      assert [a[0]] + a[1..] == a;
    }
  }

  /** Splitting undoes joining, for one or more newline-free pieces. */
  lemma {:induction false} SplitJoinNl(xs: seq<string>)
    requires |xs| >= 1
    requires forall i :: 0 <= i < |xs| ==> '\n' !in xs[i]
    ensures SplitNl(JoinNl(xs)) == xs
    decreases |xs|
  {
    SplitNlPiece(xs[0]);
    if |xs| > 1 {
      SplitJoinNl(xs[1..]);
      SplitNlPrefix(xs[0], JoinNl(xs[1..]));
      assert [xs[0]] + xs[1..] == xs;
    }
  }

  /** `s` ends with a carriage return. */
  predicate EndsInCr(s: string) {
    |s| > 0 && s[|s| - 1] == '\r'
  }

  /** Removes the carriage return of a `\r\n` line ending. */
  function DropCr(s: string): (r: string)
    ensures s == r || s == r + "\r"
    ensures s == r + "\r" <==> EndsInCr(s)
  {
    if |s| > 0 && s[|s| - 1] == '\r' then s[..|s| - 1] else s
  }

  /** `s.split(/\r?\n/)`: the newline pieces, each but the last without the `\r` of its
      line break. */
  function SplitLines(s: string): (r: seq<string>)
    ensures |r| == |SplitNl(s)| >= 1
    ensures forall i :: 0 <= i < |r| ==> r[i] == SplitNl(s)[i] || (i < |r| - 1 && r[i] + "\r" == SplitNl(s)[i])
    ensures forall i :: 0 <= i < |r| - 1 ==> (r[i] + "\r" == SplitNl(s)[i] <==> EndsInCr(SplitNl(s)[i]))
    ensures r[|r| - 1] == SplitNl(s)[|r| - 1]
  {
    var pieces := SplitNl(s);
    seq(|pieces|, i requires 0 <= i < |pieces| => if i < |pieces| - 1 then DropCr(pieces[i]) else pieces[i])
  }
}

=== FILE: tags.dfy ===
/** Context (`@name`) and project (`+name`) tags: the scan of `parseContextsAndProjects` over
    the regular expression `/\s([@\+])(\S+)/g`, and the duplicate-free lists built from it. */
module Tags {
  import opened Text

  datatype Tag = Tag(sigil: char, name: string)

  predicate IsSigil(c: char) { c == '@' || c == '+' }

  /** Length of the non-whitespace run at the start of `s`: what a greedy `\S+` takes. */
  function WordLen(s: string): (n: nat)
    ensures n <= |s| && NoWs(s[..n])
    ensures n < |s| ==> IsWs(s[n])
    decreases |s|
  {
    if |s| == 0 || IsWs(s[0]) then 0
    else
      var k := WordLen(s[1..]);
      assert s[..k + 1] == [s[0]] + s[1..][..k];
      k + 1
  }

  /** Any run with the two properties of `WordLen` is the one `WordLen` finds. */
  lemma {:induction false} WordLenUnique(s: string, m: nat)
    requires m <= |s| && NoWs(s[..m])
    requires m < |s| ==> IsWs(s[m])
    ensures WordLen(s) == m
    decreases |s|
  {
    if 0 < |s| && !IsWs(s[0]) {
      assert m > 0;
      assert s[1..][..m - 1] == s[..m][1..];
      WordLenUnique(s[1..], m - 1);
    }
  }


  /** A match of `/\s([@\+])(\S+)/` at position `i` of `s`: a whitespace character, the sigil,
      and as name the whole non-whitespace run after the sigil. */
  predicate TagAt(s: string, i: int, sigil: char, name: string) {
    0 <= i && i + 2 + |name| <= |s|
    && IsWs(s[i]) && s[i + 1] == sigil && IsSigil(sigil)
    && name != [] && s[i + 2..i + 2 + |name|] == name && NoWs(name)
    && (i + 2 + |name| == |s| || IsWs(s[i + 2 + |name|]))
  }

  /** True when the scan of `Occurrences` matches at the very start of `s`. */
  predicate MatchesAtStart(s: string) {
    |s| >= 3 && IsWs(s[0]) && IsSigil(s[1]) && !IsWs(s[2])
  }

  /** The matches `regexMatchAll` collects, in order: the scan tries each start position in
      turn and, after a match, resumes where the match ended. */
  function Occurrences(s: string): (r: seq<Tag>)
    decreases |s|
  {
    if |s| < 3 then []
    else if MatchesAtStart(s) then
      var n := WordLen(s[2..]);
      [Tag(s[1], s[2..2 + n])] + Occurrences(s[2 + n..])
    else Occurrences(s[1..])
  }

  /** A match in a suffix of `s` is a match in `s`, shifted by where the suffix starts. */
  lemma TagAtShift(s: string, d: nat, i: nat, sigil: char, name: string)
    requires d <= |s|
    ensures TagAt(s[d..], i, sigil, name) <==> TagAt(s, i + d, sigil, name)
  {
    if i + 2 + |name| <= |s| - d {
      assert s[d..][i + 2..i + 2 + |name|] == s[i + d + 2..i + d + 2 + |name|];
    }
  }

  /** Every tag the scan reports is a match of the pattern somewhere in `s`. */
  lemma {:induction false} OccurrencesSound(s: string, t: Tag)
    requires t in Occurrences(s)
    ensures exists i :: TagAt(s, i, t.sigil, t.name)
    decreases |s|
  {
    if MatchesAtStart(s) {
      var n := WordLen(s[2..]);
      var rest := s[2 + n..];
      assert Occurrences(s) == [Tag(s[1], s[2..2 + n])] + Occurrences(rest);
      if t == Tag(s[1], s[2..2 + n]) {
        assert s[2..2 + n] == s[2..][..n];
        assert TagAt(s, 0, t.sigil, t.name);
      } else {
        OccurrencesSound(rest, t);
        var i :| TagAt(rest, i, t.sigil, t.name);
        TagAtShift(s, 2 + n, i, t.sigil, t.name);
      }
    } else {
      OccurrencesSound(s[1..], t);
      var i :| TagAt(s[1..], i, t.sigil, t.name);
      TagAtShift(s, 1, i, t.sigil, t.name);
    }
  }

  /** Every match of the pattern in `s` is reported by the scan: matches never overlap, so
      none is skipped. */
  lemma {:induction false} OccurrencesComplete(s: string, i: nat, sigil: char, name: string)
    requires TagAt(s, i, sigil, name)
    ensures Tag(sigil, name) in Occurrences(s)
  {
    var m := ScanPosition(s, i, sigil, name);
    assert Occurrences(s)[m] == Tag(sigil, name);
  }

  /** Where the scan finds no match at the start, the pattern does not match there. */
  lemma NoMatchAtZero(s: string, i: nat, sigil: char, name: string)
    requires TagAt(s, i, sigil, name) && !MatchesAtStart(s)
    ensures i > 0
  {
  }

  /** A match at the start is the first tag the scan reports. */
  lemma FirstMatch(s: string, sigil: char, name: string)
    requires TagAt(s, 0, sigil, name)
    ensures MatchesAtStart(s)
    ensures Occurrences(s) == [Tag(sigil, name)] + Occurrences(s[2 + |name|..])
  {
    assert s[2] == s[2..2 + |name|][0];
    assert s[2..][..|name|] == name;
    WordLenUnique(s[2..], |name|);
  }

  /** A later match starts after the end of the match at the start. */
  lemma MatchesDoNotOverlap(s: string, i: nat, sigil: char, name: string)
    requires TagAt(s, i, sigil, name) && MatchesAtStart(s) && i > 0
    ensures var n := WordLen(s[2..]);
      i >= 2 + n && Occurrences(s) == [Tag(s[1], s[2..2 + n])] + Occurrences(s[2 + n..])
  {
    LaterMatchAfterFirst(s, i, sigil, name);
    FirstTagOf(s);
  }

  /** A later match cannot start inside the sigil or the name of the match at the start: all
      of those characters are non-whitespace. */
  lemma LaterMatchAfterFirst(s: string, i: nat, sigil: char, name: string)
    requires TagAt(s, i, sigil, name) && MatchesAtStart(s) && i > 0
    ensures i >= 2 + WordLen(s[2..])
  {
    var n := WordLen(s[2..]);
    forall k | 2 <= k < 2 + n
      ensures !IsWs(s[k])
    {
      assert s[2..][..n][k - 2] == s[k];
    }
    assert !IsWs(s[1]);
  }

  /** The scan on `s` starting with a match: that match, then the scan after it. */
  lemma FirstTagOf(s: string)
    requires MatchesAtStart(s)
    ensures var n := WordLen(s[2..]);
      Occurrences(s) == [Tag(s[1], s[2..2 + n])] + Occurrences(s[2 + n..])
  {
    assert !(|s| < 3);
  }

  /** Text that follows a whitespace character cannot change the matches before it, and the
      matches after it are found as if it stood alone. */
  lemma {:induction false} OccurrencesAppend(s: string, w: string)
    requires w == [] || IsWs(w[0])
    ensures Occurrences(s + w) == Occurrences(s) + Occurrences(w)
    decreases |s|
  {
    if |s| == 0 {
      assert s + w == w;
    } else if MatchesAtStart(s) {
      var n := WordLen(s[2..]);
      OccurrencesAppend(s[2 + n..], w);
      AppendMatchCase(s, w);
    } else {
      if |s + w| >= 3 {
        OccurrencesAppend(s[1..], w);
      }
      AppendMissCase(s, w);
    }
  }

  /** `OccurrencesAppend` for `s` starting with a match, from the same fact after the match. */
  lemma AppendMatchCase(s: string, w: string)
    requires w == [] || IsWs(w[0])
    requires MatchesAtStart(s)
    requires var rest := s[2 + WordLen(s[2..])..];
      Occurrences(rest + w) == Occurrences(rest) + Occurrences(w)
    ensures Occurrences(s + w) == Occurrences(s) + Occurrences(w)
  {
    var n := WordLen(s[2..]);
    var first, rest := [Tag(s[1], s[2..2 + n])], s[2 + n..];
    assert Occurrences(s + w) == first + Occurrences(rest + w) by {
      AppendAfterMatch(s, w);
    }
    assert Occurrences(s) == first + Occurrences(rest);
    Associative(first, Occurrences(rest), Occurrences(w));
  }

  lemma Associative<T>(a: seq<T>, b: seq<T>, c: seq<T>)
    ensures a + (b + c) == (a + b) + c
  {
  }

  /** `OccurrencesAppend` for `s` not starting with a match, from the same fact one
      character on. */
  lemma AppendMissCase(s: string, w: string)
    requires w == [] || IsWs(w[0])
    requires |s| > 0 && !MatchesAtStart(s)
    requires |s + w| >= 3 ==> Occurrences(s[1..] + w) == Occurrences(s[1..]) + Occurrences(w)
    ensures Occurrences(s + w) == Occurrences(s) + Occurrences(w)
  {
    MissStep(s);
    AppendAfterMiss(s, w);
    if |s + w| < 3 {
      assert Occurrences(s) == [];
    }
  }

  /** The step of `OccurrencesAppend` when `s` starts with a match. */
  lemma AppendAfterMatch(s: string, w: string)
    requires w == [] || IsWs(w[0])
    requires MatchesAtStart(s)
    ensures var n := WordLen(s[2..]);
      Occurrences(s + w) == [Tag(s[1], s[2..2 + n])] + Occurrences(s[2 + n..] + w)
  {
    var t := s + w;
    var n := WordLen(s[2..]);
    assert t[2..] == s[2..] + w;
    assert t[2..][..n] == s[2..][..n];
    WordLenUnique(t[2..], n);
    assert t[2..2 + n] == s[2..2 + n];
    assert t[2 + n..] == s[2 + n..] + w;
    assert MatchesAtStart(t);
  }

  /** The step of `OccurrencesAppend` when `s` does not start with a match. */
  lemma AppendAfterMiss(s: string, w: string)
    requires w == [] || IsWs(w[0])
    requires |s| > 0 && !MatchesAtStart(s)
    ensures |s + w| < 3 ==> Occurrences(s + w) == [] && Occurrences(w) == []
    ensures |s + w| >= 3 ==> Occurrences(s + w) == Occurrences(s[1..] + w)
  {
    if |s + w| >= 3 {
      MissStaysMiss(s, w);
      var t := s + w;
      assert Occurrences(t) == Occurrences(t[1..]);
      assert t[1..] == s[1..] + w;
    }
  }

  /** Where no match starts, the scan moves on by one character. */
  lemma MissStep(s: string)
    requires |s| > 0 && !MatchesAtStart(s)
    ensures Occurrences(s) == Occurrences(s[1..])
  {
    if |s| < 3 {
      assert Occurrences(s) == [];
      assert Occurrences(s[1..]) == [];
    } else {
      assert Occurrences(s) == Occurrences(s[1..]);
    }
  }

  lemma MissStaysMiss(s: string, w: string)
    requires w == [] || IsWs(w[0])
    requires |s| > 0 && !MatchesAtStart(s) && |s + w| >= 3
    ensures !MatchesAtStart(s + w)
  {
    var t := s + w;
    if |s| >= 3 {
      assert t[0] == s[0] && t[1] == s[1] && t[2] == s[2];
    } else if |s| == 1 {
      assert t[1] == w[0];
    } else {
      assert t[2] == w[0];
    }
  }

  /** A tag appended after a space is the one new match. */
  lemma OccurrencesOfAppendedTag(s: string, sigil: char, name: string)
    requires IsSigil(sigil) && name != [] && NoWs(name)
    ensures Occurrences(s + " " + ([sigil] + name)) == Occurrences(s) + [Tag(sigil, name)]
  {
    var w := " " + ([sigil] + name);
    OccurrencesAppend(s, w);
    assert s + " " + ([sigil] + name) == s + w;
    assert w[2..] == name && w[2..][..|name|] == name;
    WordLenUnique(w[2..], |name|);
    assert MatchesAtStart(w);
    assert w[2..2 + |name|] == name && w[2 + |name|..] == [];
  }

  /** `xs` with `d` added to every element. */
  function Shift(xs: seq<nat>, d: nat): (r: seq<nat>)
    ensures |r| == |xs| && forall k :: 0 <= k < |xs| ==> r[k] == xs[k] + d
  {
    seq(|xs|, k requires 0 <= k < |xs| => xs[k] + d)
  }

  /** The positions at which the scan of `Occurrences` finds its matches, in the same order:
      the `lastIndex` of each match, less the length of the match. */
  function Starts(s: string): seq<nat>
    decreases |s|
  {
    if |s| < 3 then []
    else if MatchesAtStart(s) then
      var n := WordLen(s[2..]);
      [0] + Shift(Starts(s[2 + n..]), 2 + n)
    else Shift(Starts(s[1..]), 1)
  }

  /** One step of `Starts`, as `FirstTagOf` and `MissStep` give one step of `Occurrences`. */
  lemma StartsStep(s: string)
    requires |s| > 0
    ensures MatchesAtStart(s) ==>
      Starts(s) == [0] + Shift(Starts(s[2 + WordLen(s[2..])..]), 2 + WordLen(s[2..]))
    ensures !MatchesAtStart(s) ==> Starts(s) == Shift(Starts(s[1..]), 1)
  {
    if |s| < 3 {
      assert Starts(s[1..]) == [];
    }
  }

  /** The match the scan finds at the start of `s` is a match of the pattern at position 0. */
  lemma MatchAtStartIsTag(s: string)
    requires MatchesAtStart(s)
    ensures TagAt(s, 0, s[1], s[2..2 + WordLen(s[2..])])
  {
    var n := WordLen(s[2..]);
    assert s[2..][0] == s[2];
    assert s[2..][..n] == s[2..2 + n];
    assert 2 + n < |s| ==> s[2..][n] == s[2 + n];
  }

  /** The `k`-th tag of `oc` is a match of the pattern at the `k`-th position of `st`. */
  predicate MatchesAt(s: string, st: seq<nat>, oc: seq<Tag>) {
    |st| == |oc| && forall k :: 0 <= k < |st| ==> TagAt(s, st[k], oc[k].sigil, oc[k].name)
  }

  /** The `k`-th tag the scan of `s` reports is a match of the pattern at the `k`-th of its
      positions. */
  predicate StartsAreMatches(s: string) {
    MatchesAt(s, Starts(s), Occurrences(s))
  }

  predicate Increasing(xs: seq<nat>) {
    forall k, l :: 0 <= k < l < |xs| ==> xs[k] < xs[l]
  }

  /** The scan of `s` reports its matches at strictly increasing positions, and each reported
      tag is a match of the pattern at its position. */
  predicate ScanInOrder(s: string) {
    StartsAreMatches(s) && Increasing(Starts(s))
  }

  /** `regexMatchAll` collects the matches in the order in which they stand in the string. */
  lemma {:induction false} OccurrencesInOrder(s: string)
    ensures ScanInOrder(s)
    decreases |s|
  {
    if |s| > 0 {
      StartsStep(s);
      if MatchesAtStart(s) {
        var n := WordLen(s[2..]);
        OccurrencesInOrder(s[2 + n..]);
        InOrderMatchCase(s);
        ShiftIncreasing(Starts(s[2 + n..]), 2 + n);
      } else {
        OccurrencesInOrder(s[1..]);
        InOrderMissCase(s);
        ShiftIncreasing(Starts(s[1..]), 1);
      }
    }
  }

  /** Shifting keeps a sequence increasing, and a shift by a positive amount keeps it above 0. */
  lemma ShiftIncreasing(xs: seq<nat>, d: nat)
    requires Increasing(xs)
    ensures Increasing(Shift(xs, d))
    ensures d > 0 ==> Increasing([0] + Shift(xs, d))
  {
  }

  /** `StartsAreMatches` for `s` starting with a match, from the same fact after the match. */
  lemma InOrderMatchCase(s: string)
    requires MatchesAtStart(s)
    requires StartsAreMatches(s[2 + WordLen(s[2..])..])
    ensures StartsAreMatches(s)
  {
    var n := WordLen(s[2..]);
    var rest := s[2 + n..];
    var st, oc := Starts(rest), Occurrences(rest);
    FirstTagOf(s);
    StartsStep(s);
    ShiftedMatches(s, 2 + n, st, oc);
    MatchAtStartIsTag(s);
    ConsMatch(s, 0, Tag(s[1], s[2..2 + n]), Shift(st, 2 + n), oc);
  }

  /** `StartsAreMatches` for `s` not starting with a match, from the same fact one character
      on. */
  lemma InOrderMissCase(s: string)
    requires |s| > 0 && !MatchesAtStart(s)
    requires StartsAreMatches(s[1..])
    ensures StartsAreMatches(s)
  {
    MissStep(s);
    StartsStep(s);
    ShiftedMatches(s, 1, Starts(s[1..]), Occurrences(s[1..]));
  }

  /** Matches in a suffix, shifted by where the suffix starts, are matches in `s`. */
  lemma ShiftedMatches(s: string, d: nat, st: seq<nat>, oc: seq<Tag>)
    requires d <= |s| && MatchesAt(s[d..], st, oc)
    ensures MatchesAt(s, Shift(st, d), oc)
  {
    forall k | 0 <= k < |st|
      ensures TagAt(s, Shift(st, d)[k], oc[k].sigil, oc[k].name)
    {
      TagAtShift(s, d, st[k], oc[k].sigil, oc[k].name);
    }
  }

  /** A match in front of a list of matches. */
  lemma ConsMatch(s: string, p: nat, t: Tag, st: seq<nat>, oc: seq<Tag>)
    requires TagAt(s, p, t.sigil, t.name) && MatchesAt(s, st, oc)
    ensures MatchesAt(s, [p] + st, [t] + oc)
  {
    forall k | 0 <= k < |st| + 1
      ensures TagAt(s, ([p] + st)[k], ([t] + oc)[k].sigil, ([t] + oc)[k].name)
    {
      if k > 0 {
        assert ([p] + st)[k] == st[k - 1] && ([t] + oc)[k] == oc[k - 1];
      }
    }
  }

  /** Every match of the pattern stands at one of the positions the scan reports. */
  lemma {:induction false} StartsComplete(s: string, i: nat, sigil: char, name: string)
    requires TagAt(s, i, sigil, name)
    ensures exists k :: 0 <= k < |Starts(s)| && Starts(s)[k] == i
    decreases |s|
  {
    if !MatchesAtStart(s) {
      NoMatchAtZero(s, i, sigil, name);
      TagAtShift(s, 1, i - 1, sigil, name);
      StartsComplete(s[1..], i - 1, sigil, name);
      StartsMissCase(s, i);
    } else if i > 0 {
      var n := WordLen(s[2..]);
      LaterMatchAfterFirst(s, i, sigil, name);
      TagAtShift(s, 2 + n, i - 2 - n, sigil, name);
      StartsComplete(s[2 + n..], i - 2 - n, sigil, name);
      StartsMatchCase(s, i, n, s[2 + n..]);
    } else {
      StartsAtZero(s);
    }
  }

  /** A match at the start of `s` is reported at position 0. */
  lemma StartsAtZero(s: string)
    requires MatchesAtStart(s)
    ensures |Starts(s)| > 0 && Starts(s)[0] == 0
  {
    StartsStep(s);
  }

  /** `StartsComplete` for `s` not starting with a match, from the same fact one character on. */
  lemma StartsMissCase(s: string, i: nat)
    requires |s| > 0 && !MatchesAtStart(s) && i > 0
    requires exists k :: 0 <= k < |Starts(s[1..])| && Starts(s[1..])[k] == i - 1
    ensures exists k :: 0 <= k < |Starts(s)| && Starts(s)[k] == i
  {
    var xs := Starts(s[1..]);
    assert Starts(s) == Shift(xs, 1) by {
      StartsStep(s);
    }
    var k :| 0 <= k < |xs| && xs[k] == i - 1;
    assert Starts(s)[k] == i;
  }

  /** `StartsComplete` for `s` starting with a match, from the same fact after the match. */
  lemma StartsMatchCase(s: string, i: nat, n: nat, rest: string)
    requires MatchesAtStart(s) && n == WordLen(s[2..]) && rest == s[2 + n..] && i >= 2 + n
    requires exists k :: 0 <= k < |Starts(rest)| && Starts(rest)[k] == i - 2 - n
    ensures exists k :: 0 <= k < |Starts(s)| && Starts(s)[k] == i
  {
    var xs := Starts(rest);
    assert Starts(s) == [0] + Shift(xs, 2 + n) by {
      StartsStep(s);
    }
    var k :| 0 <= k < |xs| && xs[k] == i - 2 - n;
    assert Starts(s)[k + 1] == i;
  }

  /** At a given position the pattern matches at most one tag. */
  lemma TagAtUnique(s: string, i: nat, a: char, x: string, b: char, y: string)
    requires TagAt(s, i, a, x) && TagAt(s, i, b, y)
    ensures a == b && x == y
  {
    var w := s[i + 2..];
    assert w[..|x|] == x && w[..|y|] == y;
    assert |x| < |w| ==> w[|x|] == s[i + 2 + |x|];
    assert |y| < |w| ==> w[|y|] == s[i + 2 + |y|];
    WordLenUnique(w, |x|);
    WordLenUnique(w, |y|);
  }

  /** A match of the pattern is reported by the scan at its own position. */
  lemma ScanPosition(s: string, i: nat, sigil: char, name: string) returns (m: nat)
    requires TagAt(s, i, sigil, name)
    ensures m < |Starts(s)| == |Occurrences(s)|
    ensures Starts(s)[m] == i && Occurrences(s)[m] == Tag(sigil, name)
  {
    OccurrencesInOrder(s);
    StartsComplete(s, i, sigil, name);
    m :| 0 <= m < |Starts(s)| && Starts(s)[m] == i;
    var t := Occurrences(s)[m];
    TagAtUnique(s, i, sigil, name, t.sigil, t.name);
  }

  /** The names carried by the tags with the given sigil, in order. */
  function Names(occ: seq<Tag>, sigil: char): (r: seq<string>)
    ensures forall n :: n in r <==> Tag(sigil, n) in occ
    decreases |occ|
  {
    if |occ| == 0 then []
    else (if occ[0].sigil == sigil then [occ[0].name] else []) + Names(occ[1..], sigil)
  }

  lemma {:induction false} NamesAppend(a: seq<Tag>, b: seq<Tag>, sigil: char)
    ensures Names(a + b, sigil) == Names(a, sigil) + Names(b, sigil)
    decreases |a|
  {
    if |a| == 0 {
      assert a + b == b;
    } else {
      assert (a + b)[1..] == a[1..] + b;
      NamesAppend(a[1..], b, sigil);
    }
  }

  predicate NoDup(xs: seq<string>) {
    forall i, j :: 0 <= i < j < |xs| ==> xs[i] != xs[j]
  }

  /** The source's `if (list.indexOf(x) === -1) list.push(x)` over a whole sequence: keeps
      the first occurrence of each element. */
  function Dedup(xs: seq<string>): (r: seq<string>)
    ensures forall x :: x in r <==> x in xs
    ensures NoDup(r)
    decreases |xs|
  {
    if |xs| == 0 then []
    else
      var init := xs[..|xs| - 1];
      var d := Dedup(init);
      var x := xs[|xs| - 1];
      assert xs == init + [x];
      if x in d then d else d + [x]
  }

  /** Position of the first occurrence of `x` in `xs`. */
  function FirstIndex<T(==)>(xs: seq<T>, x: T): (k: nat)
    requires x in xs
    ensures k < |xs| && xs[k] == x && x !in xs[..k]
    decreases |xs|
  {
    if xs[0] == x then 0
    else
      var k := FirstIndex(xs[1..], x) + 1;
      assert xs[..k] == [xs[0]] + xs[1..][..k - 1];
      k
  }

  lemma FirstIndexUnique<T>(xs: seq<T>, x: T, k: nat)
    requires k < |xs| && xs[k] == x && x !in xs[..k]
    ensures FirstIndex(xs, x) == k
  {
  }

  /** `Dedup` lists elements in the order of their first occurrences. */
  lemma {:induction false} DedupOrder(xs: seq<string>, i: nat, j: nat)
    requires i < j < |Dedup(xs)|
    ensures FirstIndex(xs, Dedup(xs)[i]) < FirstIndex(xs, Dedup(xs)[j])
    decreases |xs|
  {
    var init := xs[..|xs| - 1];
    var d := Dedup(init);
    var x := xs[|xs| - 1];
    var a, b := Dedup(xs)[i], Dedup(xs)[j];
    assert a in init by {
      assert a in d;
    }
    var fa := FirstIndex(init, a);
    assert xs[..fa] == init[..fa];
    FirstIndexUnique(xs, a, fa);
    if j < |d| {
      DedupOrder(init, i, j);
      var fb := FirstIndex(init, b);
      assert xs[..fb] == init[..fb];
      FirstIndexUnique(xs, b, fb);
    } else {
      assert b == x && x !in init;
      assert xs[..|xs| - 1] == init;
      FirstIndexUnique(xs, x, |xs| - 1);
    }
  }

  /** Past a different first element, the first occurrence is one further on. */
  lemma FirstIndexTail<T>(xs: seq<T>, x: T)
    requires x in xs && xs[0] != x
    ensures x in xs[1..] && FirstIndex(xs, x) == FirstIndex(xs[1..], x) + 1
  {
  }

  /** The names of one sigil come first in the same order as their tags among the matches. */
  lemma {:induction false} NamesOrder(occ: seq<Tag>, sigil: char, a: string, b: string)
    requires a in Names(occ, sigil) && b in Names(occ, sigil)
    requires FirstIndex(Names(occ, sigil), a) < FirstIndex(Names(occ, sigil), b)
    ensures FirstIndex(occ, Tag(sigil, a)) < FirstIndex(occ, Tag(sigil, b))
    decreases |occ|
  {
    var ns, rest := Names(occ, sigil), Names(occ[1..], sigil);
    if occ[0] != Tag(sigil, a) {
      FirstIndexTail(occ, Tag(sigil, a));
      FirstIndexTail(occ, Tag(sigil, b));
      if occ[0].sigil == sigil {
        assert ns == [occ[0].name] + rest;
        FirstIndexTail(ns, a);
        FirstIndexTail(ns, b);
      } else {
        assert ns == rest;
      }
      NamesOrder(occ[1..], sigil, a, b);
    }
  }

  /** Appending one element to the input of `Dedup` appends it to the output exactly when it
      is new. */
  lemma DedupSnoc(xs: seq<string>, x: string)
    ensures Dedup(xs + [x]) == if x in xs then Dedup(xs) else Dedup(xs) + [x]
  {
    assert (xs + [x])[..|xs|] == xs;
  }

  /** A sequence without duplicates is its own `Dedup`. */
  lemma {:induction false} DedupOfNoDup(xs: seq<string>)
    requires NoDup(xs)
    ensures Dedup(xs) == xs
    decreases |xs|
  {
    if |xs| > 0 {
      var init := xs[..|xs| - 1];
      DedupOfNoDup(init);
      assert xs[|xs| - 1] !in init;
      assert xs == init + [xs[|xs| - 1]];
    }
  }

  /** `_.without(xs, x)`: the elements of `xs` other than `x`, in their order. */
  function Without(xs: seq<string>, x: string): (r: seq<string>)
    ensures forall y :: y in r <==> y in xs && y != x
    ensures x !in xs ==> r == xs
    ensures NoDup(xs) ==> NoDup(r)
    decreases |xs|
  {
    if |xs| == 0 then []
    else
      var rest := Without(xs[1..], x);
      assert NoDup(xs) ==> NoDup(xs[1..]) && xs[0] !in xs[1..];
      assert xs == [xs[0]] + xs[1..];
      if xs[0] == x then rest else [xs[0]] + rest
  }

  /** `_.without` works element by element: removing from a concatenation removes from each
      part, so the kept elements stay in their order. */
  lemma {:induction false} WithoutAppend(a: seq<string>, b: seq<string>, x: string)
    ensures Without(a + b, x) == Without(a, x) + Without(b, x)
    decreases |a|
  {
    if |a| == 0 {
      assert a + b == b;
    } else {
      var h, t := a[0], a[1..];
      assert a == [h] + t;
      assert a + b == [h] + (t + b);
      WithoutCons(h, t + b, x);
      WithoutCons(h, t, x);
      WithoutAppend(t, b, x);
      if h != x {
        Associative([h], Without(t, x), Without(b, x));
      }
    }
  }

  /** One step of `_.without`: the head is dropped exactly when it is the element. */
  lemma WithoutCons(h: string, t: seq<string>, x: string)
    ensures Without([h] + t, x) == if h == x then Without(t, x) else [h] + Without(t, x)
  {
    assert ([h] + t)[0] == h && ([h] + t)[1..] == t;
  }

  /** Removing the element just appended to a list that did not hold it gives the list back. */
  lemma WithoutSnoc(xs: seq<string>, x: string)
    requires x !in xs
    ensures Without(xs + [x], x) == xs
  {
    WithoutAppend(xs, [x], x);
    assert Without([x], x) == Without([], x) == [];
  }

  /** The context and project names of a text, as `parseContextsAndProjects` returns them. */
  datatype TagLists = TagLists(contexts: seq<string>, projects: seq<string>)

  /** `parseContextsAndProjects`: scans the text with a space in front, so that a tag at the
      very start counts, and keeps each name once, in first-occurrence order. */
  function Extract(text: string): (r: TagLists)
    ensures NoDup(r.contexts) && NoDup(r.projects)
  {
    var occ := Occurrences(" " + text);
    TagLists(Dedup(Names(occ, '@')), Dedup(Names(occ, '+')))
  }

  /** A name is a context (project) of a text exactly when it is the name of some
      whitespace-preceded `@` (`+`) match in the text with a space in front. */
  lemma ExtractSpec(text: string, name: string)
    ensures name in Extract(text).contexts <==> exists i :: TagAt(" " + text, i, '@', name)
    ensures name in Extract(text).projects <==> exists i :: TagAt(" " + text, i, '+', name)
  {
    var s := " " + text;
    forall sigil | sigil == '@' || sigil == '+'
      ensures Tag(sigil, name) in Occurrences(s) <==> exists i :: TagAt(s, i, sigil, name)
    {
      if Tag(sigil, name) in Occurrences(s) {
        OccurrencesSound(s, Tag(sigil, name));
      }
      if exists i :: TagAt(s, i, sigil, name) {
        var i :| TagAt(s, i, sigil, name);
        OccurrencesComplete(s, i, sigil, name);
      }
    }
  }

  /** Appending a space and a well-formed tag to a text adds its name to the end of the
      matching list when it is new, and leaves the other list alone. */
  lemma ExtractAppendTag(text: string, sigil: char, name: string)
    requires IsSigil(sigil) && name != [] && NoWs(name)
    ensures var before, after := Extract(text), Extract(text + " " + ([sigil] + name));
      && after.contexts == (if sigil == '@' && name !in before.contexts then before.contexts + [name] else before.contexts)
      && after.projects == (if sigil == '+' && name !in before.projects then before.projects + [name] else before.projects)
  {
    var s := " " + text;
    assert " " + (text + " " + ([sigil] + name)) == s + " " + ([sigil] + name);
    OccurrencesOfAppendedTag(s, sigil, name);
    NamesOfAppendedTag(Occurrences(s), sigil, name, '@');
    NamesOfAppendedTag(Occurrences(s), sigil, name, '+');
  }

  /** The deduplicated names of one sigil after a tag is appended to the matches. */
  lemma NamesOfAppendedTag(occ: seq<Tag>, sigil: char, name: string, k: char)
    ensures Dedup(Names(occ + [Tag(sigil, name)], k)) ==
      if sigil == k && name !in Dedup(Names(occ, k)) then Dedup(Names(occ, k)) + [name] else Dedup(Names(occ, k))
  {
    NamesAppend(occ, [Tag(sigil, name)], k);
    assert Names([Tag(sigil, name)], k) == (if sigil == k then [name] else []);
    if sigil == k {
      DedupSnoc(Names(occ, k), name);
    } else {
      assert Names(occ, k) + [] == Names(occ, k);
    }
  }

  /** `p` is the position of the first match of the tag in `s`. */
  predicate FirstMatchAt(s: string, p: int, sigil: char, name: string) {
    TagAt(s, p, sigil, name) && forall q :: 0 <= q < p ==> !TagAt(s, q, sigil, name)
  }

  /** The deduplicated names of one sigil follow the text: each name's first match stands
      before every match of a name listed after it. */
  lemma NamesInTextOrder(s: string, sigil: char, i: nat, j: nat)
    requires i < j < |Dedup(Names(Occurrences(s), sigil))|
    ensures var names := Dedup(Names(Occurrences(s), sigil));
      exists p :: FirstMatchAt(s, p, sigil, names[i]) && forall q :: TagAt(s, q, sigil, names[j]) ==> p < q
  {
    var occ, st := Occurrences(s), Starts(s);
    var ns := Names(occ, sigil);
    var a, b := Dedup(ns)[i], Dedup(ns)[j];
    OccurrencesInOrder(s);
    DedupOrder(ns, i, j);
    NamesOrder(occ, sigil, a, b);
    var ka, kb := FirstIndex(occ, Tag(sigil, a)), FirstIndex(occ, Tag(sigil, b));
    var p := st[ka];
    assert TagAt(s, p, sigil, a);
    forall q | TagAt(s, q, sigil, a)
      ensures p <= q
    {
      ScanFirstIndex(s, sigil, a, q);
    }
    forall q | TagAt(s, q, sigil, b)
      ensures p < q
    {
      ScanFirstIndex(s, sigil, b, q);
    }
    assert FirstMatchAt(s, p, sigil, a);
  }

  /** The position of a tag's first report by the scan is at or before each of its matches. */
  lemma ScanFirstIndex(s: string, sigil: char, name: string, q: nat)
    requires TagAt(s, q, sigil, name)
    ensures Tag(sigil, name) in Occurrences(s)
    ensures var k := FirstIndex(Occurrences(s), Tag(sigil, name));
      k < |Starts(s)| && Starts(s)[k] <= q
  {
    var occ := Occurrences(s);
    var m := ScanPosition(s, q, sigil, name);
    OccurrencesInOrder(s);
    var k := FirstIndex(occ, Tag(sigil, name));
    forall l | 0 <= l < k
      ensures occ[l] != Tag(sigil, name)
    {
      assert occ[..k][l] == occ[l];
    }
  }

  /** `parseContextsAndProjects` lists contexts and projects in the order in which they first
      stand in the text: the first match of an earlier name comes before every match of a
      later one. */
  lemma ExtractInOrder(text: string, i: nat, j: nat)
    ensures i < j < |Extract(text).contexts| ==>
      exists p :: FirstMatchAt(" " + text, p, '@', Extract(text).contexts[i])
        && forall q :: TagAt(" " + text, q, '@', Extract(text).contexts[j]) ==> p < q
    ensures i < j < |Extract(text).projects| ==>
      exists p :: FirstMatchAt(" " + text, p, '+', Extract(text).projects[i])
        && forall q :: TagAt(" " + text, q, '+', Extract(text).projects[j]) ==> p < q
  {
    var s := " " + text;
    if i < j < |Extract(text).contexts| {
      NamesInTextOrder(s, '@', i, j);
    }
    if i < j < |Extract(text).projects| {
      NamesInTextOrder(s, '+', i, j);
    }
  }
}

=== FILE: tasks.dfy ===
/** The task record of `todoItem` and its four tag mutators, with the `addTag` and `removeTag`
    helpers they use to keep the text in step with the lists. */
module Tasks {
  import opened Options
  import opened Text
  import opened Strings
  import opened Dates
  import opened Tags

  /** One todo.txt entry. `number` is the 1-based line number the parser assigns; a task built
      by `MakeTask` without one has none. */
  datatype Task = Task(
    number: Option<nat>,
    complete: bool,
    completeDate: Option<DateValue>,
    priority: string,
    date: Option<DateValue>,
    text: string,
    contexts: seq<string>,
    projects: seq<string>)

  /** The properties handed to `todoItem`. The defaults of an absent property are `None`,
      `false`, `None`, `""`, `None` and `""`. */
  datatype Fields = Fields(
    number: Option<nat>,
    complete: bool,
    completeDate: Option<Date>,
    priority: string,
    date: Option<Date>,
    text: string)

  function AsValue(d: Option<Date>): Option<DateValue> {
    match d
    case Some(x) => Some(Calendar(x))
    case None => None
  }

  /** The tag lists are exactly the ones the text yields. */
  predicate Consistent(t: Task) {
    t.contexts == Extract(t.text).contexts && t.projects == Extract(t.text).projects
  }

  /** `todoItem`: copies the properties and derives the tag lists from the text. */
  function MakeTask(f: Fields): (t: Task)
    ensures Consistent(t)
    ensures NoDup(t.contexts) && NoDup(t.projects)
    ensures t.text == f.text && t.number == f.number && t.complete == f.complete
    ensures t.priority == f.priority
    ensures t.completeDate == AsValue(f.completeDate) && t.date == AsValue(f.date)
  {
    var tags := Extract(f.text);
    Task(f.number, f.complete, AsValue(f.completeDate), f.priority, AsValue(f.date), f.text,
         tags.contexts, tags.projects)
  }

  /** The calendar date a date field holds, for fields that hold one or nothing. */
  function CalendarOf(d: Option<DateValue>): (r: Option<Date>)
    requires d.None? || d.value.Calendar?
    ensures AsValue(r) == d
  {
    match d
    case Some(v) => Some(v.date)
    case None => None
  }

  /** `todoItem` rebuilds a consistent task with calendar dates from its own properties. */
  lemma MakeTaskOfConsistent(t: Task)
    requires Consistent(t)
    requires t.completeDate.None? || t.completeDate.value.Calendar?
    requires t.date.None? || t.date.value.Calendar?
    ensures MakeTask(Fields(t.number, t.complete, CalendarOf(t.completeDate), t.priority,
                            CalendarOf(t.date), t.text)) == t
  {
  }

  /** How a tag is written: its sigil followed by the name. */
  function Spelling(sigil: char, name: string): string {
    [sigil] + name
  }

  /** `" " + tag + " "`: the form `addTag` and `removeTag` search `text + " "` for. */
  function Spaced(tag: string): string {
    " " + tag + " "
  }

  /** `addTag`: the text with `" " + tag` appended, unless `text + " "` already contains the
      tag between spaces. Either way the tag then stands between spaces in `r + " "`. */
  function AddTag(text: string, tag: string): (r: string)
    ensures Contains(r + " ", Spaced(tag))
    ensures text <= r
    ensures r == text <==> Contains(text + " ", Spaced(tag))
    ensures r != text ==> |r| == |text| + 1 + |tag|
    ensures r == text || r == text + " " + tag
  {
    if IndexOf(text + " ", Spaced(tag)) == -1 then
      var r := text + " " + tag;
      assert (r + " ")[|text|..|text| + |Spaced(tag)|] == Spaced(tag);
      assert OccursAt(r + " ", Spaced(tag), |text|);
      r
    else text
  }

  /** `removeTag`: while `text + " "` contains the tag between spaces, cut the leftmost such
      space and tag out. Each pass shortens the text by `|tag| + 1`; at the end no spaced
      occurrence is left. */
  function RemoveTag(text: string, tag: string): (r: string)
    ensures !Contains(r + " ", Spaced(tag))
    ensures !Contains(text + " ", Spaced(tag)) ==> r == text
    ensures |r| <= |text|
    decreases |text|
  {
    var found := IndexOf(text + " ", Spaced(tag));
    if found == -1 then text
    else
      assert found + |tag| + 2 <= |text| + 1;
      RemoveTag(text[..found] + text[found + |tag| + 1..], tag)
  }

  /** The two tag lists of a task. */
  datatype Kind = Context | Project

  function SigilOf(k: Kind): char {
    match k
    case Context => '@'
    case Project => '+'
  }

  function Other(k: Kind): Kind {
    match k
    case Context => Project
    case Project => Context
  }

  function NamesOf(t: Task, k: Kind): seq<string> {
    match k
    case Context => t.contexts
    case Project => t.projects
  }

  function WithNames(t: Task, k: Kind, names: seq<string>): Task {
    match k
    case Context => t.(contexts := names)
    case Project => t.(projects := names)
  }

  /** The body of `addContext` and `addProject`: a name not yet listed goes to the end of the
      list and, through `AddTag`, into the text; a listed name changes nothing. */
  function AddName(t: Task, k: Kind, name: string): (r: Task)
    ensures name in NamesOf(r, k)
    ensures name in NamesOf(t, k) ==> r == t
    ensures name !in NamesOf(t, k) ==> NamesOf(r, k) == NamesOf(t, k) + [name]
    ensures name !in NamesOf(t, k) ==> Contains(r.text + " ", Spaced(Spelling(SigilOf(k), name)))
    ensures name !in NamesOf(t, k) && !Contains(t.text + " ", Spaced(Spelling(SigilOf(k), name)))
      ==> r.text == t.text + " " + Spelling(SigilOf(k), name)
    ensures Contains(t.text + " ", Spaced(Spelling(SigilOf(k), name))) ==> r.text == t.text
    ensures t.text <= r.text
    ensures NoDup(NamesOf(t, k)) ==> NoDup(NamesOf(r, k))
    ensures NamesOf(r, Other(k)) == NamesOf(t, Other(k))
    ensures r.(text := t.text, contexts := t.contexts, projects := t.projects) == t
  {
    if name in NamesOf(t, k) then t
    else WithNames(t, k, NamesOf(t, k) + [name]).(text := AddTag(t.text, Spelling(SigilOf(k), name)))
  }

  /** The body of `removeContext` and the corrected `removeProject`: a listed name leaves the
      list and, through `RemoveTag`, every spaced occurrence of its tag leaves the text; an
      unlisted name changes nothing. */
  function RemoveName(t: Task, k: Kind, name: string): (r: Task)
    ensures name !in NamesOf(r, k)
    ensures name !in NamesOf(t, k) ==> r == t
    ensures forall y :: y in NamesOf(r, k) <==> y in NamesOf(t, k) && y != name
    ensures NamesOf(r, k) == Without(NamesOf(t, k), name)
    ensures name in NamesOf(t, k) ==> !Contains(r.text + " ", Spaced(Spelling(SigilOf(k), name)))
    ensures |r.text| <= |t.text|
    ensures NoDup(NamesOf(t, k)) ==> NoDup(NamesOf(r, k))
    ensures NamesOf(r, Other(k)) == NamesOf(t, Other(k))
    ensures r.(text := t.text, contexts := t.contexts, projects := t.projects) == t
  {
    if name !in NamesOf(t, k) then t
    else WithNames(t, k, Without(NamesOf(t, k), name)).(text := RemoveTag(t.text, Spelling(SigilOf(k), name)))
  }

  /** `item.addContext(context)`. */
  function AddContext(t: Task, context: string): (r: Task)
    ensures context in r.contexts && r.projects == t.projects
    ensures context in t.contexts ==> r == t
    ensures context !in t.contexts ==> r.contexts == t.contexts + [context]
    ensures context !in t.contexts && !Contains(t.text + " ", Spaced("@" + context))
      ==> r.text == t.text + " @" + context
    ensures Contains(t.text + " ", Spaced("@" + context)) ==> r.text == t.text
    ensures r.(text := t.text, contexts := t.contexts) == t
  {
    assert Spelling('@', context) == "@" + context;
    AddName(t, Context, context)
  }

  /** `item.addProject(project)`. */
  function AddProject(t: Task, project: string): (r: Task)
    ensures project in r.projects && r.contexts == t.contexts
    ensures project in t.projects ==> r == t
    ensures project !in t.projects ==> r.projects == t.projects + [project]
    ensures project !in t.projects && !Contains(t.text + " ", Spaced("+" + project))
      ==> r.text == t.text + " +" + project
    ensures Contains(t.text + " ", Spaced("+" + project)) ==> r.text == t.text
    ensures r.(text := t.text, projects := t.projects) == t
  {
    assert Spelling('+', project) == "+" + project;
    AddName(t, Project, project)
  }

  /** `item.removeContext(context)`. */
  function RemoveContext(t: Task, context: string): (r: Task)
    ensures context !in r.contexts && r.projects == t.projects
    ensures context !in t.contexts ==> r == t
    ensures r.contexts == Without(t.contexts, context)
    ensures context in t.contexts ==> !Contains(r.text + " ", Spaced("@" + context))
    ensures r.(text := t.text, contexts := t.contexts) == t
  {
    assert Spelling('@', context) == "@" + context;
    RemoveName(t, Context, context)
  }

  /** `item.removeProject(project)`, with the text searched for `+project`. */
  function RemoveProject(t: Task, project: string): (r: Task)
    ensures project !in r.projects && r.contexts == t.contexts
    ensures project in t.projects ==> !Contains(r.text + " ", Spaced("+" + project))
    ensures project !in t.projects ==> r == t
    ensures r.projects == Without(t.projects, project)
    ensures r.(text := t.text, projects := t.projects) == t
  {
    RemoveName(t, Project, project)
  }

  /** `item.removeProject(project)` as the source writes it: the project leaves the list, but
      the text is searched for `@project` instead of `+project`. */
  function RemoveProjectAsWritten(t: Task, project: string): (r: Task)
    ensures project !in r.projects && r.contexts == t.contexts
    ensures project in t.projects ==> !Contains(r.text + " ", Spaced("@" + project))
    ensures project !in t.projects ==> r == t
    ensures r.projects == Without(t.projects, project)
    ensures r.(text := t.text, projects := t.projects) == t
  {
    if project !in t.projects then t
    else t.(projects := Without(t.projects, project), text := RemoveTag(t.text, "@" + project))
  }

  /** Adding a name twice is the same as adding it once. */
  lemma AddNameIdempotent(t: Task, k: Kind, name: string)
    ensures AddName(AddName(t, k, name), k, name) == AddName(t, k, name)
  {
  }

  /** Removing a name twice is the same as removing it once. */
  lemma RemoveNameIdempotent(t: Task, k: Kind, name: string)
    ensures RemoveName(RemoveName(t, k, name), k, name) == RemoveName(t, k, name)
  {
  }

  /** `removeTag` cuts exactly one occurrence out of `a + " " + tag + b` when the tag has no
      space in it, `b` is empty or starts with a space, and neither `a + " "` nor the text
      left afterwards holds the spaced tag: the leftmost spaced occurrence is the one after
      `a`, because an earlier one would either lie inside `a + " "` or put the space after
      `a` inside the tag. */
  lemma RemoveTagCut(a: string, tag: string, b: string)
    requires ' ' !in tag
    requires b == [] || b[0] == ' '
    requires !Contains(a + " ", Spaced(tag))
    requires !Contains(a + b + " ", Spaced(tag))
    ensures RemoveTag(a + " " + tag + b, tag) == a + b
  {
    var text := a + " " + tag + b;
    LeftmostSpacedTag(a, tag, b);
    RemoveTagStep(text, tag);
    assert text[..|a|] == a;
    assert text[|a| + |tag| + 1..] == b;
    assert RemoveTag(a + b, tag) == a + b;
  }

  /** One pass of `removeTag`: the leftmost spaced occurrence is cut and the search repeats.
      This is a single unfolding of `RemoveTag`, named so that `RemoveTagCut` can use it
      without unfolding the recursion itself. */
  lemma RemoveTagStep(text: string, tag: string)
    requires IndexOf(text + " ", Spaced(tag)) != -1
    ensures var f := IndexOf(text + " ", Spaced(tag));
      f + |tag| + 1 <= |text| && RemoveTag(text, tag) == RemoveTag(text[..f] + text[f + |tag| + 1..], tag)
  {
  }

  /** The leftmost spaced occurrence of a space-free tag in `a + " " + tag + b + " "` is the
      one after `a`, when `a + " "` holds none. */
  lemma LeftmostSpacedTag(a: string, tag: string, b: string)
    requires ' ' !in tag
    requires b == [] || b[0] == ' '
    requires !Contains(a + " ", Spaced(tag))
    ensures IndexOf(a + " " + tag + b + " ", Spaced(tag)) == |a|
  {
    var u, pat := a + " " + tag + b + " ", Spaced(tag);
    assert OccursAt(u, pat, |a|) by {
      assert u[|a|..|a| + |pat|] == pat;
    }
    forall j | 0 <= j < |a|
      ensures !OccursAt(u, pat, j)
    {
      EarlierSpacedTag(a, tag, b, j);
    }
  }

  /** No spaced occurrence of the tag starts inside `a`. */
  lemma EarlierSpacedTag(a: string, tag: string, b: string, j: nat)
    requires ' ' !in tag
    requires !Contains(a + " ", Spaced(tag))
    requires j < |a|
    ensures !OccursAt(a + " " + tag + b + " ", Spaced(tag), j)
  {
    var u, pat := a + " " + tag + b + " ", Spaced(tag);
    if j + |pat| <= |a| + 1 {
      assert (a + " ")[j..j + |pat|] == u[j..j + |pat|];
      assert !OccursAt(a + " ", pat, j);
    } else if j + |pat| <= |u| {
      var p := |a| - j;
      assert u[j..j + |pat|][p] == u[|a|] == ' ';
      assert pat[p] == tag[p - 1];
    }
  }

  /** `removeTag` undoes `addTag` for a tag without spaces that the text did not hold. */
  lemma RemoveTagOfAddTag(text: string, tag: string)
    requires ' ' !in tag
    requires !Contains(text + " ", Spaced(tag))
    ensures RemoveTag(AddTag(text, tag), tag) == text
  {
    assert text + [] + " " == text + " ";
    RemoveTagCut(text, tag, []);
    assert text + " " + tag + [] == text + " " + tag;
    assert text + [] == text;
  }

  /** Removing a name undoes adding it, when the name was not listed, its tag has no spaces
      and the text did not hold the tag. */
  lemma RemoveNameOfAddName(t: Task, k: Kind, name: string)
    requires name !in NamesOf(t, k)
    requires ' ' !in name
    requires !Contains(t.text + " ", Spaced(Spelling(SigilOf(k), name)))
    ensures RemoveName(AddName(t, k, name), k, name) == t
  {
    var tag := Spelling(SigilOf(k), name);
    assert ' ' !in tag;
    RemoveTagOfAddTag(t.text, tag);
    WithoutSnoc(NamesOf(t, k), name);
  }

  /** A tag standing between spaces in `text + " "` is a tag match of the text with a space
      in front. */
  lemma SpacedTagIsMatch(text: string, j: int, sigil: char, name: string)
    requires IsSigil(sigil) && name != [] && NoWs(name)
    requires OccursAt(text + " ", Spaced(Spelling(sigil, name)), j)
    ensures TagAt(" " + text, j + 1, sigil, name)
  {
    var s, u := " " + text, text + " ";
    var pat := Spaced(Spelling(sigil, name));
    assert pat == [' ', sigil] + name + [' '];
    forall k | 0 <= k < |pat|
      ensures u[j + k] == pat[k]
      ensures k < |pat| - 1 ==> s[j + 1 + k] == pat[k]
    {
      assert u[j..j + |pat|][k] == u[j + k];
    }
    assert s[j + 1] == pat[0] == ' ';
    assert s[j + 2] == pat[1] == sigil;
    forall k | 0 <= k < |name|
      ensures s[j + 3 + k] == name[k]
    {
      assert s[j + 1 + (k + 2)] == pat[k + 2];
    }
    assert s[j + 3..j + 3 + |name|] == name;
    if j + 3 + |name| < |s| {
      assert s[j + 1 + (|name| + 2)] == pat[|name| + 2] == ' ';
    }
  }

  /** On a consistent task, adding a well-formed name (non-empty, no whitespace) keeps the
      lists and the text consistent: the tag is appended to the text and its name to the end
      of its list, which is where a fresh extraction puts it. */
  lemma AddNameKeepsConsistent(t: Task, k: Kind, name: string)
    requires Consistent(t) && name != [] && NoWs(name)
    ensures Consistent(AddName(t, k, name))
  {
    if name !in NamesOf(t, k) {
      var sigil := SigilOf(k);
      var tag := Spelling(sigil, name);
      assert !Contains(t.text + " ", Spaced(tag)) by {
        if Contains(t.text + " ", Spaced(tag)) {
          var j :| 0 <= j <= |t.text + " "| && OccursAt(t.text + " ", Spaced(tag), j);
          SpacedTagIsMatch(t.text, j, sigil, name);
          ExtractSpec(t.text, name);
        }
      }
      ExtractAppendTag(t.text, sigil, name);
    }
  }

  /** The condition on the name is needed: an empty name, or one with whitespace such as the
      `a b` of `addContext("a b")`, is listed, but no match of the tag pattern carries it, so
      the text never yields it and the task is no longer consistent. */
  lemma AddMalformedNameDrifts(t: Task, k: Kind, name: string)
    requires name !in NamesOf(t, k)
    requires name == [] || !NoWs(name)
    ensures name in NamesOf(AddName(t, k, name), k)
    ensures !Consistent(AddName(t, k, name))
  {
    var r := AddName(t, k, name);
    ExtractSpec(r.text, name);
    assert forall i :: !TagAt(" " + r.text, i, SigilOf(k), name);
  }

  /** `addContext("a b")` on a task with empty text lists `a b`, and the task drifts. */
  lemma AddContextWithSpace()
    ensures var t := MakeTask(Fields(None, false, None, "", None, ""));
      var r := AddContext(t, "a b");
      && "a b" in r.contexts && !Consistent(r)
  {
    var t := MakeTask(Fields(None, false, None, "", None, ""));
    assert !IsWs('a') && IsWs(' ');
    assert !NoWs("a b") by {
      assert "a b"[1] == ' ';
    }
    assert "a b" !in t.contexts by {
      ExtractSpec("", "a b");
    }
    AddMalformedNameDrifts(t, Context, "a b");
  }

  /** The remove operations do not keep a consistent task consistent: a tag at the very start
      of the text has no space before it, so `RemoveTag` leaves it in place while the name
      leaves the list. */
  lemma RemoveLeadingTagDrifts()
    ensures var t := MakeTask(Fields(None, false, None, "", None, "@a"));
      && Consistent(t) && t.contexts == ["a"]
      && RemoveContext(t, "a").text == "@a" && !Consistent(RemoveContext(t, "a"))
  {
    ExtractLeadingTag();
    RemoveLeadingTag();
  }

  /** The text `@a` yields the one context `a`. */
  lemma ExtractLeadingTag()
    ensures Extract("@a") == TagLists(["a"], [])
  {
    var w := " @a";
    assert " " + "@a" == w;
    assert Occurrences(w) == [Tag('@', "a")] by {
      assert MatchesAtStart(w);
      assert WordLen(w[2..]) == 1;
      assert w[1] == '@' && w[2..3] == "a" && w[3..] == [];
    }
    assert Names([Tag('@', "a")], '@') == ["a"] + Names([], '@') == ["a"];
    assert Dedup(["a"]) == ["a"] by {
      assert ["a"][..0] == [];
    }
  }

  /** `RemoveTag` finds no space before the leading `@a`. */
  lemma RemoveLeadingTag()
    ensures RemoveTag("@a", "@a") == "@a"
  {
    assert IndexOf("@a ", Spaced("@a")) == -1;
  }

  /** The tag lists of the sample text `a +p`. */
  lemma ExtractSample()
    ensures Extract("a +p") == TagLists([], ["p"])
  {
    ExtractPlain();
    ExtractAppendTag("a", '+', "p");
    assert "a" + " " + (['+'] + "p") == "a +p";
  }

  /** The text `a` yields no tags. */
  lemma ExtractPlain()
    ensures Extract("a") == TagLists([], [])
  {
    assert Occurrences(" " + "a") == [];
  }

  /** `RemoveTag` on the sample text: `@p` is not there, `+p` is cut out with its space. */
  lemma RemoveTagSample()
    ensures RemoveTag("a +p", "@p") == "a +p"
    ensures RemoveTag("a +p", "+p") == "a"
  {
    var u := "a +p" + " ";
    assert u == "a +p ";
    var at, plus := Spaced("@p"), Spaced("+p");
    assert u[0..4][1] != at[1] && u[1..5][1] != at[1];
    assert IndexFrom(u, at, 2) == -1;
    assert IndexFrom(u, at, 0) == IndexFrom(u, at, 1) == -1;
    assert u[0..4][1] != plus[1];
    assert u[1..5] == plus;
    assert IndexFrom(u, plus, 0) == IndexFrom(u, plus, 1) == 1;
    assert "a +p"[..1] + "a +p"[4..] == "a";
    assert "a" + " " == "a ";
    assert IndexFrom("a ", plus, 0) == -1;
  }

  /** `removeProject` as written leaves the project's tag in the text: it searches for `@p`,
      which `a +p` does not contain, so the text still yields `p` as a project although the
      list no longer does. */
  lemma RemoveProjectAsWrittenKeepsTag()
    ensures var t := MakeTask(Fields(None, false, None, "", None, "a +p"));
      var r := RemoveProjectAsWritten(t, "p");
      && t.projects == ["p"] && r.projects == [] && r.text == "a +p" && !Consistent(r)
  {
    ExtractSample();
    RemoveTagSample();
    assert "@" + "p" == "@p";
    assert Without(["p"], "p") == [];
  }

  /** The corrected `RemoveProject` takes `+p` out of the same text and leaves it consistent. */
  lemma RemoveProjectClearsTag()
    ensures var t := MakeTask(Fields(None, false, None, "", None, "a +p"));
      var r := RemoveProject(t, "p");
      && r.projects == [] && r.text == "a" && Consistent(r)
  {
    ExtractSample();
    RemoveTagSample();
    assert Spelling('+', "p") == "+p";
    assert Without(["p"], "p") == [];
    assert Occurrences(" " + "a") == [];
  }

  /** Wherever the text holds the project's tag but not `@` followed by its name, the source's
      `removeProject` leaves the text as it was and the task inconsistent. */
  lemma RemoveProjectAsWrittenDrifts(t: Task, project: string)
    requires Consistent(t) && project in t.projects
    requires !Contains(t.text + " ", Spaced("@" + project))
    ensures RemoveProjectAsWritten(t, project).text == t.text
    ensures !Consistent(RemoveProjectAsWritten(t, project))
  {
  }
}

=== FILE: text.dfy ===
/** Character classes and trimming as JavaScript sees them: `String.prototype.trim` and the
    regular-expression classes `\s`, `\S`, `\d` and `[A-Z]`. */
module Text {

  /** The WhiteSpace and LineTerminator code points of ECMAScript: exactly what `trim` removes
      and what `\s` matches. */
  predicate IsWs(c: char) {
    var n := c as int;
    n == 0x09 || n == 0x0A || n == 0x0B || n == 0x0C || n == 0x0D || n == 0x20
    || n == 0xA0 || n == 0x1680 || (0x2000 <= n <= 0x200A)
    || n == 0x2028 || n == 0x2029 || n == 0x202F || n == 0x205F || n == 0x3000 || n == 0xFEFF
  }

  predicate IsDigit(c: char) { '0' <= c <= '9' }

  predicate IsUpper(c: char) { 'A' <= c <= 'Z' }

  predicate AllWs(s: string) { forall i :: 0 <= i < |s| ==> IsWs(s[i]) }

  predicate NoWs(s: string) { forall i :: 0 <= i < |s| ==> !IsWs(s[i]) }

  /** Neither end of `s` is whitespace (the empty string qualifies). */
  predicate Trimmed(s: string) {
    s == [] || (!IsWs(s[0]) && !IsWs(s[|s| - 1]))
  }

  /** The end of the whitespace run that starts at `i`: where a greedy `\s*` begun at `i`
      stops. */
  function SkipWs(s: string, i: nat): (r: nat)
    requires i <= |s|
    ensures i <= r <= |s|
    ensures forall k :: i <= k < r ==> IsWs(s[k])
    ensures r < |s| ==> !IsWs(s[r])
    decreases |s| - i
  {
    if i == |s| || !IsWs(s[i]) then i else SkipWs(s, i + 1)
  }

  /** The start of the whitespace run that ends at `j`, looking no further back than `lo`. */
  function BackWs(s: string, lo: nat, j: nat): (r: nat)
    requires lo <= j <= |s|
    ensures lo <= r <= j
    ensures forall k :: r <= k < j ==> IsWs(s[k])
    ensures r > lo ==> !IsWs(s[r - 1])
    decreases j
  {
    if j == lo || !IsWs(s[j - 1]) then j else BackWs(s, lo, j - 1)
  }

  /** `String.prototype.trim`: drop the whitespace runs at both ends. The result is the
      middle of `s`, between two all-whitespace pieces, and its ends are not whitespace. */
  function Trim(s: string): (r: string)
    ensures Trimmed(r)
    ensures r == [] <==> AllWs(s)
    ensures exists i :: 0 <= i <= |s| - |r| && s[i..i + |r|] == r && AllWs(s[..i]) && AllWs(s[i + |r|..])
  {
    var a := SkipWs(s, 0);
    var e := BackWs(s, a, |s|);
    assert AllWs(s[..a]) by {
      forall k | 0 <= k < a ensures IsWs(s[..a][k]) {
        assert s[..a][k] == s[k];
      }
    }
    assert AllWs(s[e..]) by {
      forall k | 0 <= k < |s| - e ensures IsWs(s[e..][k]) {
        assert s[e..][k] == s[e + k];
      }
    }
    assert s[a..a + (e - a)] == s[a..e];
    s[a..e]
  }

  /** Trimming a string whose ends are not whitespace changes nothing. */
  lemma TrimOfTrimmed(s: string)
    requires Trimmed(s)
    ensures Trim(s) == s
  {
  }
}
